=== FILE: README.md ===
# Website monitor core, modelled in Dafny

This project models the core of a small Node.js website-monitoring service. It has five parts:

- A **configuration store** (`config.js`). It holds the websites, their metrics, aggregators and alerts, and tells listeners about every change through eight `(element, operation)` channels.
- A **metric store** (`dataStore.js`). It maps a url and a metric name to a time series.
- A **check service** (`check.js`). It runs one checker per website. Each checker periodically sends a GET request and pushes availability, response time and status code into the website's enabled metrics.
- An **aggregation service** (`aggregate.js`). Each aggregator periodically computes windowed aggregations of source metrics and pushes them into derived metrics named `metricName_aggregatorName_aggregationType`.
- An **alert service** (`alert.js`). It watches metrics. It keeps one triggered flag per `url + '_' + alertName`, and logs "down" and "recovered" lines when a `min` or `max` threshold is crossed.

Files, one module each:

| file | module | contents |
|---|---|---|
| `dict.dfy` | `Dict` | JavaScript objects as insertion-ordered association lists, which is the order `_.forEach` visits them in; `Option`/`Result` |
| `metric.dfy` | `Metric` | the surface of a time series the services use: samples in arrival order and keyed `push` subscribers |
| `store.dfy` | `Store` | `DataStore.get` / `set` |
| `alert.dfy` | `Alert` | threshold evaluation, the shared flags, the log, `_alertSet` / `_alertDel` |
| `pipeline.dfy` | `Pipeline` | a push into a stored metric followed by synchronous delivery to its subscribers |
| `timers.dfy` | `Timers` | `setInterval` / `clearInterval`, and the url-keyed registries both services keep |
| `config.dfy` | `Config` | the configuration store, its setters and deleters, and the events each one emits |
| `aggregate.dfy` | `Aggregate` | derived-metric registration, one tick, the aggregation service |
| `check.dfy` | `Check` | status-code availability, the outcome-to-pushes mapping, the check service |
| `wiring.dfy` | `Wiring` | `service.js`'s binding of the services to the configuration's events; the unit-test scenarios |

## How the model represents the source

- A thrown `TypeError` becomes a failed outcome: `None`, `Failure`, `ok == false`, or `Progress(…, false)`. Preconditions are kept only where the command handler's url check guarantees the input: `metric` and `aggregator` commands are refused for a url that is not configured (service.js:136, service.js:156), so the configuration setters require a configured url. Every other missing key is an error path of the model: `Config.DelWebsite` for an unknown url, and `Wiring.Dispatch` for an aggregator-del whose aggregator was never set.
- A timer callback is an explicit function of its inputs. `Date.now()` becomes a clock argument. The HTTP request becomes an `Outcome` argument. `metric.aggregate(type, timeframe, now)` becomes an uninterpreted `Aggregation` argument, because the source of the time series is not part of this model.
- The configuration's listeners are opaque ids. The events of one configuration call are returned as a list in emission order. `Wiring.DispatchAll` then hands them to the services one by one. That gives the same result as dispatching during the call, because no handler reads a part of the configuration that the rest of the same call goes on to change. `_setChecker` starts the checker with the stored `checkDelay` (check.js:77), which `setWebsite` stores before it fires website-set (config.js:67-80) and does not change afterwards.

### Behaviour of the code worth knowing

- **`now` per pair.** The interval body reads `Date.now()` once for each `(metric, type)` pair (aggregate.js:78). So `Aggregate.TickPairs` takes one clock reading per pair. `Aggregate.TickAtOneInstant` covers the case where the clock does not move.
- **A failing pair ends the tick.** A missing source or derived metric throws inside the loop (aggregate.js:76-96), and nothing catches it. The remaining pairs are not pushed, and `TickPairs` returns `ok == false` with the pushes made so far.
- **Derived metrics are always created anew.** The constructor calls `dataStore.set` with a new metric for every pair (aggregate.js:37-46). Re-setting an aggregator therefore discards the samples and the subscribers, including alert watches, of its existing derived metrics. `Aggregate.Register` states this.
- **One flag per alert.** All settings of an alert share one flag (alert.js:46-56). So `{min, max}` and `{max, min}` react differently to the same sample. `Alert.MinMaxLowSample` and `Alert.MaxMinLowSample` show this.
- **Checkers read the live configuration.** A checker keeps the website's `config` object (check.js:28-31), and `setMetric` assigns into that same object (config.js:116). So a metric switched on or off takes effect at the checker's next request. `Wiring.CheckerTick` reads the website's current `metrics`, and `Wiring.MetricEnabledThenResponse` and `Wiring.MetricDisabledThenResponse` state the effect.
- **Setting a website again deletes nothing.** `setWebsite` replaces the entry and fires only set events (config.js:66-88). An aggregator of the old entry that the new settings do not mention stays registered and keeps running. A later `delWebsite` fires aggregator-del only for the aggregators the entry holds then, so that aggregator is never stopped. `Config.SetWebsiteFiresNoDeletion` and `Wiring.ResetWebsiteKeepsAggregators` state this.
- **Registry keys can collide across websites.** The aggregation service keys its instances by `url + '_' + aggregatorName` (aggregate.js:124-133). So url `a_b` with aggregator `c` and url `a` with aggregator `b_c` share one entry, and setting one stops the other. `Aggregate.ServiceKeyCollision` exhibits this.

## Model

| member | source | states |
|---|---|---|
| Dict.Put | config.js:116 | assigning a property keeps an existing key's place or appends a new one; reading it back gives the new value, every other key reads as before, and no key becomes duplicated |
| Dict.Remove | config.js:152 | `delete` removes exactly that key; every other key reads as before and keeps its place in enumeration order, and deleting an absent key changes nothing |
| Dict.PutAllFresh | config.js:82-83 | replaying a duplicate-free object into one that has none of its keys appends its entries in order |
| Dict.PutThenRemove | alert.js:67-72 | adding a new key and then deleting it restores the object exactly |
| Metric.Fresh | check.js:36 | `new Metric(name)` has that name, no samples and no subscribers |
| Metric.Append | check.js:42-45 | a push puts the sample at the tail whatever its timestamp; earlier samples keep their places |
| Metric.Subscribe | alert.js:67 | `on('push', key, …)` makes the key read as the new watch and leaves every other subscription as it was |
| Metric.Unsubscribe | alert.js:72 | `deleteCallback` removes only that key; removing a missing key leaves the metric unchanged |
| Store.Get | dataStore.js:15-17 | an unknown name under a known url reads as absent; a known one reads as the stored metric |
| Store.Empty | dataStore.js:11-13 | a new store has no url bucket |
| Store.Set | dataStore.js:19-24 | the bucket is created if missing; only `(url, name)` changes, and a new bucket holds nothing else |
| Alert.Init | alert.js:12-19 | a new alert service has no triggered alert and an empty log |
| Alert.Record | alert.js:25-38 | a trigger or recovery appends one line and sets the flag to "down" exactly for a trigger; other flags are untouched |
| Alert.Evaluate | alert.js:44-59 | a threshold moves the flag from normal to triggered exactly on a breach, and back exactly on a clear; each move logs one line of the matching kind and nothing is logged without one |
| Alert.NewValue | alert.js:42-61 | evaluating all settings only extends the log, by at most one line per setting; every new line is about this alert and sample; no other alert's flag changes |
| Alert.MinThreshold | alert.js:45-51 | with `min` alone: below it from normal logs "down", at or above it from triggered logs "recovered", and otherwise nothing changes |
| Alert.MaxThreshold | alert.js:52-58 | the mirror image for `max` |
| Alert.QuietSampleChangesNothing | alert.js:42-61 | a sample that moves no threshold from the current state leaves flags and log exactly as they were |
| Alert.MinMaxLowSample | alert.js:42-61 | with `{min, max}`, a sample below `min` from normal logs "down" then "recovered" and ends normal, because the settings share one flag |
| Alert.MaxMinLowSample | alert.js:42-61 | with `{max, min}`, the same sample logs only "down" and ends triggered: key order matters |
| Alert.MinMaxRecoversBelowMin | alert.js:42-61 | with `{min, max}` and a triggered flag, a sample below `min` is logged as "recovered" |
| Alert.AlertSet | alert.js:63-68 | the flag is reset to false whatever it was; the watch is registered under `alert_<name>` on the metric named like the alert, and nothing else in the store changes; a missing metric fails after the reset |
| Alert.AlertDel | alert.js:70-73 | only the `alert_<name>` subscription is removed; samples, other subscriptions and other metrics are untouched; a missing metric fails |
| Alert.SetThenDelRestoresSubscribers | test/test.js:149-161 | registering an alert and deleting it gives the metric back exactly, and the subscriber count goes up by one and back |
| Alert.Deliver | alert.js:67 | delivering a pushed sample to a metric's watches only ever extends the alert log |
| Alert.Text | alert.js:30-38 | a trigger line starts "Website <url> is down." and a recovery line starts "[Recovered] Website <url> is up.", the forms the integration tests match |
| Pipeline.Push | aggregate.js:87-95 | pushing into a stored metric appends exactly that sample to it, changes no other metric, and runs every watch of that metric; a missing metric fails |
| Timers.Start | aggregate.js:73-74 | `setInterval` hands out an id that was not live; afterwards the instance is running |
| Timers.Stop | aggregate.js:105-107 | after `clearInterval` the instance is not running, and only its own timer is cancelled |
| Timers.StopTwice | aggregate.js:105-107 | stopping a second time changes nothing |
| Timers.Fire | aggregate.js:74-102 | a timer callback acts only while its interval is live |
| Timers.NoTickAfterStop | aggregate.js:105-107 | after `stop` no tick of that instance has any effect |
| Timers.Install | aggregate.js:123-129 | on set, the instance under the key is stopped before the new one is installed and started; other keys are untouched |
| Timers.Uninstall | aggregate.js:131-134 | on delete, the instance is stopped and only its key removed |
| Timers.InstallTracks | aggregate.js:123-129 | set keeps the invariant that the live timers are exactly those of the registered instances (plus other owners'), one per key |
| Timers.UninstallTracks | aggregate.js:131-134 | delete keeps the same invariant, so no timer outlives its registration |
| Timers.TrackedAreRunning | check.js:99-110 | under the invariant every registered instance is running and every other live timer has another owner |
| Timers.ReplaceThenRemove | test/test.js:40-60 | set twice, then delete, on a fresh key: the first instance is stopped by the second set, the second is running until the delete, and afterwards registry and live timers are as before |
| Config.Init | config.js:20-40 | a new configuration has no websites and an empty listener list for each of the eight channels |
| Config.On | config.js:44-54 | exactly the eight `(element, operation)` pairs are accepted, and the listener goes to the end of that channel only; an unknown element is reported before an unknown operation |
| Config.Invoke | config.js:58-61 | an event calls every listener of its channel once, in registration order |
| Config.OnThenFire | config.js:44-61 | a newly registered listener is called for its channel's next event, after all earlier listeners |
| Config.SetMetric | config.js:115-123 | the flag is stored under the metric name, nothing else in the configuration changes, and one metric-set event is fired |
| Config.SetMetrics | config.js:82-83 | replaying a website's metrics stores them all and fires one metric-set per metric, in key order |
| Config.SetAggregatorMetric | config.js:167-169 | one metric's type list is stored in the named aggregator; nothing else changes |
| Config.SetAggregatorMetrics | config.js:132-133 | copying a metrics object into a stored aggregator assigns its entries in key order into that aggregator's metrics and changes nothing else |
| Config.SetAggregator | config.js:125-140 | the aggregator is stored as its scalar settings plus a copy of its metrics, and one aggregator-set event carries the settings as given |
| Config.SetAggregatorStoresSettings | config.js:125-140 | for settings without repeated keys the stored aggregator equals the settings, and the website's other aggregators, metrics, alerts and check delay are unchanged |
| Config.SetAggregators | config.js:84-85 | replaying a website's aggregators fires one aggregator-set per aggregator, in key order |
| Config.SetAlert | config.js:142-149 | the settings are stored under the alert name, and one alert-set event is fired |
| Config.SetAlerts | config.js:86-87 | replaying a website's alerts fires one alert-set per alert, in key order |
| Config.SetWebsite | config.js:66-88 | the entry ends up with the input's check delay, metrics, aggregators and alerts; no other website changes; the events are website-set (with empty collections), then the metric-sets, aggregator-sets and alert-sets |
| Config.DelWebsite | config.js:90-113 | an unknown url fails before any event is fired or anything deleted; otherwise the events are one aggregator-del per aggregator, then one alert-del per alert, then website-del, each carrying the stored value, and afterwards the url is absent and nothing else has changed |
| Config.DelAlert | config.js:151-157 | only the named alert is removed; the other alerts keep their values and their order, which is the order a later `delWebsite` announces them in; other website fields and other websites are unchanged; one alert-del without a value is fired |
| Config.DelAggregator | config.js:159-165 | only the named aggregator is removed; the other aggregators keep their values and their order, which is the order a later `delWebsite` announces them in; other website fields and other websites are unchanged; one aggregator-del without a value is fired |
| Config.SetWebsiteFiresNoDeletion | config.js:66-88 | every event `setWebsite` fires is a set event, also when it replaces an existing entry |
| Config.SetThenDelAlert | config.js:142-157 | setting an alert the website did not have and then deleting it gives back the website's entry, alerts in order, and leaves the other websites alone |
| Config.SetThenDelAggregator | config.js:125-165 | setting an aggregator the website did not have and then deleting it gives back the website's entry, aggregators in order, and leaves the other websites alone |
| Config.SetThenDelWebsite | config.js:66-113 | setting an absent website and then deleting it restores the configuration, and the deletion announces every aggregator and alert of the input |
| Aggregate.PairsCover | aggregate.js:37-38 | the pairs visited are exactly the configured `(metricName, aggregationType)` pairs |
| Aggregate.DerivedName | aggregate.js:43 | the derived key starts with the source name and an underscore, and its length is that of the three parts plus two separators |
| Aggregate.DerivedNameInjective | aggregate.js:43 | when metric and aggregator names contain no underscore, the derived key determines the source metric, the aggregator and the aggregation type |
| Aggregate.SeparatorCollision | aggregate.js:43 | with an underscore inside a name, two different (metric, aggregator) choices produce the same derived key |
| Aggregate.SameAggregatorInjective | aggregate.js:43 | within one aggregator, when aggregation types contain no underscore, the derived key determines the source metric and the type, even when metric and aggregator names contain underscores |
| Aggregate.DerivedHoldsAggregator | aggregate.js:43 | a derived key contains `_<aggregatorName>_` right after its source name |
| Aggregate.NamingSeparates | aggregate.js:37-46 | when aggregation types contain no underscore, no source name contains `_<aggregatorName>_` and the pairs are distinct, no derived key is a source name and no two pairs share a derived key, which are the conditions the tick property needs |
| Aggregate.UnitTestNamesSeparate | test/test.js:40-52 | the unit test's aggregator `1_minute` over `test_metric` with `SUM` meets those conditions, and its derived key is `test_metric_1_minute_SUM` |
| Aggregate.Register | aggregate.js:37-47 | every configured pair's derived key holds a metric with no samples and no subscribers; no other key of the store changes |
| Aggregate.Construct | aggregate.js:28-48 | the instance keeps the settings given, and every `(metric, type)` in them has an empty derived metric under `metric_name_type` |
| Aggregate.TickPairs | aggregate.js:76-97 | a tick only pushes into derived keys and only extends the alert log; a missing url or source for the first pair ends it with nothing changed |
| Aggregate.Tick | aggregate.js:75-101 | a tick keeps the store's urls and only extends the alert log |
| Aggregate.TickPushesOncePerPair | aggregate.js:76-96 | when sources and derived metrics exist and no derived key is a source or shared, the tick completes and each derived metric gets exactly one sample: the source's aggregation at the instant read for that pair, stamped with it |
| Aggregate.TickAtOneInstant | aggregate.js:78-95 | with a clock that does not move, each derived metric's new last sample is the aggregation at `now`, stamped `now` |
| Aggregate.ServiceKey | aggregate.js:124 | the registry key starts with the url and an underscore |
| Aggregate.ServiceKeyCollision | aggregate.js:124-133 | two different (url, aggregator) choices can produce the same registry key |
| Aggregate.SetAggregator | aggregate.js:123-129 | the old aggregator under `url_name` is stopped; the new one is running and its derived metrics are registered empty; the store is the constructor's, so every store entry other than the derived keys, including checker metrics and alert-watched metrics, is unchanged; other registry entries are untouched |
| Aggregate.DelAggregator | aggregate.js:131-134 | the aggregator is stopped and only its key removed |
| Aggregate.RegisterThenUnregister | test/test.js:40-60 | register twice and unregister: one running aggregator per key, and none left afterwards |
| Check.StatusCodeToAvailability | check.js:17 | availability is 1 exactly when the status code is below 400, and 0 otherwise |
| Check.AddMetric | check.js:34-38 | a new empty metric is installed at `(url, name)` only when enabled; otherwise the store is unchanged |
| Check.Readings | check.js:56-76 | an error yields one zero availability; a response yields availability, response time and status code, in that order; all are stamped with the send time |
| Check.AvailableIffBelow400 | check.js:57-72 | the stored availability is 1 exactly for a response with a status below 400 |
| Check.PushValue | check.js:40-47 | nothing happens unless the website's live metrics setting enables the name; then the metric must exist, gets exactly that sample, and its watches run |
| Check.Record | check.js:56-76 | the callback only touches the named metrics of its url, only extends the log, and does nothing when every name is disabled |
| Check.RecordOncePerMetric | check.js:72-74 | with distinct names and the enabled ones present, each enabled metric gets exactly its reading and disabled ones are untouched |
| Check.OnOutcome | check.js:56-76 | a request outcome changes nothing outside its own website |
| Check.ErrorRecordsUnavailable | check.js:57-60 | a failed request stores one zero availability at the send time when availability is enabled, and nothing else |
| Check.ResponseRecordsEachMetric | check.js:72-74 | a response stores each enabled metric's reading, stamped with the send time |
| Check.SetChecker | check.js:99-105 | the url's previous checker is stopped; the new one is running; other checkers are untouched |
| Check.DelChecker | check.js:107-110 | the checker is stopped and only its url removed |
| Check.SetMetric | check.js:112-114 | when enabled, the url's checker puts an empty metric under the name; when disabled, the store is unchanged; every other (url, metric) entry is untouched either way; a url without a checker fails |
| Wiring.Start | service.js:27-31 | the process starts with no checkers, no aggregators and no live timers |
| Wiring.StartOwned | service.js:27-36 | at start every live timer is owned, so `Wiring.DispatchAll` applies from the first configuration call |
| Wiring.RunBindsOneHandlerPerEvent | service.js:34-36 | the seven registrations of the three `run()` methods succeed and leave one listener per channel (none on metric-del), so every event causes exactly one call, to the handler `Wiring.Dispatch` runs for it |
| Wiring.Dispatch | service.js:34-36 | each event reaches the one service bound to its channel: website events change only the checkers and the timers and leave the store as it was; metric-set changes only that metric's entry; aggregator events change only the aggregators, the timers and, for aggregator-set, that aggregator's derived metrics; alert events change only that alert's flag and its metric's subscriptions, keeping its samples and every other metric; website-set and aggregator-set always succeed; a deletion or metric-set for an unknown key fails |
| Wiring.DispatchKeepsOwned | service.js:34-36 | every handler keeps every live timer owned by exactly one registered checker or aggregator |
| Wiring.DispatchAll | config.js:58-61 | handling a call's events in order keeps every timer owned |
| Wiring.AggregatorStaysDeleted | aggregate.js:131-134 | under events that set no aggregator, a deleted aggregator stays gone |
| Wiring.CheckerStaysDeleted | check.js:107-110 | under events that set no website, a deleted checker stays gone |
| Wiring.DelWebsiteStopsItsTimers | config.js:90-113 | handling `delWebsite` stops and forgets the website's checker and every aggregator configured for it |
| Wiring.AggregatorTick | aggregate.js:73-102 | an aggregator instance whose interval is not live does nothing; a running one performs one tick, and a TypeError in the tick ends the process |
| Wiring.StoppedStaysStopped | aggregate.js:105-107 | an interval that has been cleared is never live again, whatever events are handled later, because ids are not reissued |
| Wiring.DeletedAggregatorStaysSilent | aggregate.js:131-134 | after `aggregator del` succeeds, the deleted instance's callback never pushes again under any later events |
| Wiring.AggregatorsSurvive | aggregate.js:123-134 | events without an aggregator-del never unregister an aggregator |
| Wiring.ResetWebsiteKeepsAggregators | config.js:66-88 | handling the events of `setWebsite` keeps every aggregator already registered, including ones the new settings drop |
| Wiring.Handle | service.js:96-128 | a configuration call and its handlers fail together: a throwing call or handler ends the process, and on success the configuration is the call's and the timers stay owned |
| Wiring.DelWebsiteCall | service.js:127-128 | `website del` on an unknown url fails; when it completes, the entry is removed and the website's checker and its configured aggregators are gone |
| Wiring.SetMetricCall | service.js:136-144 | `metric set` stores the flag in the configuration and has the url's checker register the metric; it fails exactly when the url has no checker |
| Wiring.CheckerTick | check.js:49-77 | a stopped checker's callback changes nothing; a running one records the outcome against the website's current `metrics` setting, and changes only the store and the alerts |
| Wiring.CheckerTickKeepsOwned | check.js:49-77 | a checker callback keeps every live timer owned and the configuration unchanged |
| Wiring.ResponseNamesDistinct | check.js:13 | a response's three readings name three different metrics |
| Wiring.MetricEnabledThenResponse | config.js:115-116 | after `metric set <url> <name> 1`, the running checker's next response leaves that metric holding exactly one sample, the reading for that name stamped with the send time |
| Wiring.MetricDisabledThenResponse | check.js:40-47 | after `metric set <url> <name> 0`, the running checker's next response leaves that metric as it was |
| Wiring.DeliverToOne | alert.js:67 | a push to a metric with one watch runs exactly that alert's evaluation |
| Wiring.LowThresholdScenario | test/test.js:165-185 | with `{min: 0.5}`, one subscriber is registered; pushing 0 triggers and logs "down", and pushing 1 recovers and logs "recovered" |
| Wiring.HighThresholdScenario | test/test.js:187-208 | with `{max: 0.5}`, pushing 1 triggers and pushing 0 recovers |

## Left out

- `metric.js`: its source is not part of this model. Aggregation (SUM/MIN/MAX/AVG/AVG_TIME/COUNT) is an uninterpreted parameter, and a metric is only its name, samples and subscriber table.
- The real clock, `setInterval` scheduling and delays (`computeDelay`, `checkDelay`). Time is an explicit argument, and a timer is an id that is live or not.
- The HTTP request. Its outcome is an input. A response that arrives after its checker was stopped still pushes in the source; the model does not follow in-flight requests.
- `display.js`, `Aggregator.toString`, `DataStore.toString`, `AlertService.toString` and the `display` flag's rendering: console output only.
- How JavaScript writes a number in a template string. `Alert.Text` takes it as a parameter.
- `Config.load` / `save` and `service.js`'s websocket command dispatch: file and network I/O.
- Property order for integer-like keys, which JavaScript puts first. Keys are modelled in insertion order.
- `on` with an element or operation that is an `Object.prototype` property name (e.g. `constructor`). The source rejects these too, but with a different error: `on('constructor', 'set', cb)` throws the operation message, and `on('website', 'constructor', cb)` throws a TypeError because `Object.push` is not a function. The model reports them as `BadElement` or `BadOperation` by name.
- Settings and flags of JSON types other than numbers and booleans: thresholds are reals and metric flags are booleans.
- The `name` field of a derived metric (`"undefined_" + type`, because aggregate.js:44 reads a field that does not exist). It is modelled, but nothing depends on it.
- Wiring.Dispatch: a handler that throws is `None`, and the state changes it made before throwing are dropped (e.g. the flag reset of `_alertSet`). So is the state of the configuration call that was interrupted. service.js installs no handler for uncaught exceptions, so such a TypeError ends the Node process and the dropped state is never observed.
- Check.Record: a TypeError in the request callback is `None`, without the pushes made before it. The exception is uncaught and ends the Node process, so those pushes are never observed.
- Config.Invoke: every listener of the channel is called. Lodash's `_.forEach` would stop at a listener that returns `false` (config.js:59-60), but every listener the services register is a method without a return value (check.js:117-119, aggregate.js:137-138, alert.js:76-77), so it returns `undefined` and the early stop never happens in this program.
- Aggregate.TickPairs: the ending with `ok == false` is stated for the first pair only. For later pairs, `Aggregate.TickPushesOncePerPair` gives the successful case.
- Alert.Deliver: only the growth of the log is stated for several subscribers. `Wiring.DeliverToOne` gives the exact effect for one.
- Config.SetAggregators, Config.SetAlerts, Config.SetMetrics: the stored value is stated as the fold `PutAll` of the input. Equality with the input for duplicate-free objects is proved in `Config.SetWebsite`.
- Recursion through chained aggregations is not unrolled: a push's delivery runs only alert watches, the only push subscribers the services register.

=== FILE: aggregate.dfy ===
/**
 The aggregation service (aggregate.js): an aggregator periodically reads
 windowed aggregations of source metrics and pushes each result into a
 derived metric named `metricName_aggregatorName_aggregationType`, so that
 derived metrics can be alerted on or aggregated again.
 */
module Aggregate {
  import opened Dict
  import opened Metric
  import opened Store
  import opened Alert
  import opened Pipeline
  import opened Timers
  import Config

  /** One `(metricName, aggregationType)` pair of an aggregator's `metrics` setting. */
  datatype Pair = Pair(metricName: string, aggregationType: string)

  /** The pairs of one metric, in the order of its type list. */
  function PairsOf(metricName: string, types: seq<string>): (r: seq<Pair>)
    ensures |r| == |types|
    ensures forall j :: 0 <= j < |types| ==> r[j] == Pair(metricName, types[j])
  {
    seq(|types|, j requires 0 <= j < |types| => Pair(metricName, types[j]))
  }

  /** The nested `_.forEach` order: metrics in key order, each metric's types in list order. */
  function Pairs(metrics: Dict<seq<string>>): seq<Pair>
  {
    if metrics == [] then [] else PairsOf(metrics[0].key, metrics[0].val) + Pairs(metrics[1..])
  }

  /** The pairs visited are exactly the configured ones. */
  lemma {:induction false} PairsCover(metrics: Dict<seq<string>>, p: Pair)
    ensures p in Pairs(metrics) <==>
      exists i, j :: 0 <= i < |metrics| && 0 <= j < |metrics[i].val| && p == Pair(metrics[i].key, metrics[i].val[j])
  {
    if metrics != [] {
      PairsCover(metrics[1..], p);
      var head := PairsOf(metrics[0].key, metrics[0].val);
      assert p in Pairs(metrics) <==> p in head || p in Pairs(metrics[1..]);
      if p in head {
        var j :| 0 <= j < |head| && head[j] == p;
        assert p == Pair(metrics[0].key, metrics[0].val[j]);
      } else if p in Pairs(metrics[1..]) {
        var i, j :| 0 <= i < |metrics[1..]| && 0 <= j < |metrics[1..][i].val| && p == Pair(metrics[1..][i].key, metrics[1..][i].val[j]);
        assert metrics[1..][i] == metrics[i + 1];
      } else {
        forall i, j | 0 <= i < |metrics| && 0 <= j < |metrics[i].val|
          ensures p != Pair(metrics[i].key, metrics[i].val[j])
        {
          if i == 0 {
            assert head[j] == Pair(metrics[0].key, metrics[0].val[j]);
          } else {
            assert metrics[1..][i - 1] == metrics[i];
          }
        }
      }
    }
  }

  /** The naming convention that makes derived metrics addressable. */
  function DerivedName(metricName: string, aggregatorName: string, aggregationType: string): (r: string)
    ensures metricName + "_" <= r
    ensures |r| == |metricName| + |aggregatorName| + |aggregationType| + 2
  {
    metricName + "_" + aggregatorName + "_" + aggregationType
  }

  /** Splitting at the first separator: a separator-free head is recovered exactly. */
  lemma SplitAtSeparator(x: string, y: string, u: string, v: string)
    requires '_' !in x && '_' !in u && x + "_" + y == u + "_" + v
    ensures x == u && y == v
  {
    var s := x + "_" + y;
    assert s[|x|] == '_';
    assert (u + "_" + v)[|u|] == '_';
    if |x| < |u| {
      assert false;
    } else if |u| < |x| {
      assert false;
    }
    assert x == s[..|x|] == u;
    assert y == s[|x| + 1..] == v;
  }

  /**
   When metric and aggregator names contain no separator, the derived key
   determines its three parts: distinct pairs never share a derived metric.
   */
  lemma DerivedNameInjective(m1: string, a1: string, t1: string, m2: string, a2: string, t2: string)
    requires '_' !in m1 && '_' !in a1 && '_' !in m2 && '_' !in a2
    requires DerivedName(m1, a1, t1) == DerivedName(m2, a2, t2)
    ensures m1 == m2 && a1 == a2 && t1 == t2
  {
    assert DerivedName(m1, a1, t1) == m1 + "_" + (a1 + "_" + t1);
    assert DerivedName(m2, a2, t2) == m2 + "_" + (a2 + "_" + t2);
    SplitAtSeparator(m1, a1 + "_" + t1, m2, a2 + "_" + t2);
    SplitAtSeparator(a1, t1, a2, t2);
  }

  /** Without that restriction two different pairs can collide. */
  lemma SeparatorCollision()
    ensures DerivedName("a_b", "c", "d") == DerivedName("a", "b_c", "d")
  {
  }

  /** The fields of an `Aggregator` instance that its tick uses. */
  datatype Aggregator = Aggregator(url: string, name: string, timeframe: int, computeDelay: int, display: bool, metrics: Dict<seq<string>>)

  function Derived(a: Aggregator, p: Pair): string
  {
    DerivedName(p.metricName, a.name, p.aggregationType)
  }

  /** `n` is not the store key of any of `pairs`' derived metrics. */
  ghost predicate NotDerived(a: Aggregator, pairs: seq<Pair>, n: string)
  {
    forall i :: 0 <= i < |pairs| ==> Derived(a, pairs[i]) != n
  }

  /**
   The metric the constructor creates for a type: `new Metric(this.aggregatorName + '_' + type)`,
   where `aggregatorName` is not a field of the instance and reads `undefined`.
   */
  function DerivedMetric(aggregationType: string): (m: Metric)
    ensures m.samples == [] && m.subscribers == []
  {
    Fresh("undefined_" + aggregationType)
  }

  ghost predicate HoldsEmpty(s: DataStore, url: string, n: string)
  {
    url in s.metrics && n in s.metrics[url] && s.metrics[url][n].samples == [] && s.metrics[url][n].subscribers == []
  }

  /**
   The constructor's loop: one `dataStore.set` per pair, always with a new
   metric, so a derived metric that already existed loses its samples and
   its subscribers. Nothing but the derived keys under the url changes.
   */
  function Register(store: DataStore, a: Aggregator, pairs: seq<Pair>): (r: DataStore)
    ensures r.metrics.Keys == store.metrics.Keys + (if pairs == [] then {} else {a.url})
    ensures forall i :: 0 <= i < |pairs| ==> HoldsEmpty(r, a.url, Derived(a, pairs[i]))
    ensures forall u, n :: u in store.metrics && (u != a.url || NotDerived(a, pairs, n)) ==> Get(r, u, n) == Get(store, u, n)
    ensures a.url !in store.metrics && pairs != [] ==>
      forall n :: NotDerived(a, pairs, n) ==> Get(r, a.url, n) == None
    decreases |pairs|
  {
    if pairs == [] then store
    else
      var s1 := Set(store, a.url, Derived(a, pairs[0]), DerivedMetric(pairs[0].aggregationType));
      var r := Register(s1, a, pairs[1..]);
      assert forall i :: 1 <= i < |pairs| ==> pairs[1..][i - 1] == pairs[i];
      assert HoldsEmpty(r, a.url, Derived(a, pairs[0])) by {
        if !NotDerived(a, pairs[1..], Derived(a, pairs[0])) {
          var i :| 0 <= i < |pairs[1..]| && Derived(a, pairs[1..][i]) == Derived(a, pairs[0]);
        } else {
          assert Get(r, a.url, Derived(a, pairs[0])) == Get(s1, a.url, Derived(a, pairs[0]));
        }
      }
      r
  }

  /** `new Aggregator(url, name, settings, dataStore)`: the instance and the store after its derived metrics are registered. */
  function Construct(store: DataStore, url: string, name: string, settings: Config.AggregatorConf): (r: (Aggregator, DataStore))
    ensures r.0 == Aggregator(url, name, settings.timeframe, settings.computeDelay, settings.display, settings.metrics)
    ensures r.1.metrics.Keys == store.metrics.Keys + (if Pairs(settings.metrics) == [] then {} else {url})
    ensures forall i, j :: 0 <= i < |settings.metrics| && 0 <= j < |settings.metrics[i].val| ==>
      HoldsEmpty(r.1, url, DerivedName(settings.metrics[i].key, name, settings.metrics[i].val[j]))
    ensures forall u, n :: u in store.metrics && (u != url || NotDerived(r.0, Pairs(settings.metrics), n)) ==>
      Get(r.1, u, n) == Get(store, u, n)
  {
    var a := Aggregator(url, name, settings.timeframe, settings.computeDelay, settings.display, settings.metrics);
    var pairs := Pairs(settings.metrics);
    var r := Register(store, a, pairs);
    forall i, j | 0 <= i < |settings.metrics| && 0 <= j < |settings.metrics[i].val|
      ensures HoldsEmpty(r, url, DerivedName(settings.metrics[i].key, name, settings.metrics[i].val[j]))
    {
      var p := Pair(settings.metrics[i].key, settings.metrics[i].val[j]);
      PairsCover(settings.metrics, p);
      var k :| 0 <= k < |pairs| && pairs[k] == p;
      assert Derived(a, pairs[k]) == DerivedName(settings.metrics[i].key, name, settings.metrics[i].val[j]);
    }
    (a, r)
  }

  /** The state after a tick: `ok` is false when a TypeError ended it early. */
  datatype Progress = Progress(store: DataStore, alerts: AlertService, ok: bool)

  /**
   The interval body over `pairs`, `clock[i]` being the `Date.now()` read
   for pair `i`. For each pair the source metric's aggregation at that
   instant is pushed, stamped with it, into the derived metric. A missing
   url bucket, source or derived metric throws: the pairs before it have
   been pushed, the rest are not.
   */
  function TickPairs(store: DataStore, alerts: AlertService, a: Aggregator, f: Aggregation, pairs: seq<Pair>, clock: seq<int>): (r: Progress)
    requires |clock| == |pairs|
    ensures r.store.metrics.Keys == store.metrics.Keys
    ensures |alerts.alerts| <= |r.alerts.alerts| && r.alerts.alerts[..|alerts.alerts|] == alerts.alerts
    ensures forall u, n :: u in store.metrics && (u != a.url || NotDerived(a, pairs, n)) ==> Get(r.store, u, n) == Get(store, u, n)
    ensures pairs == [] ==> r == Progress(store, alerts, true)
    ensures pairs != [] && (a.url !in store.metrics || pairs[0].metricName !in store.metrics[a.url]) ==> r == Progress(store, alerts, false)
    decreases |pairs|
  {
    if pairs == [] then Progress(store, alerts, true)
    else if a.url !in store.metrics then Progress(store, alerts, false)
    else match Get(store, a.url, pairs[0].metricName)
      case None => Progress(store, alerts, false)
      case Some(src) =>
        var sample := Sample(clock[0], f(src.samples, pairs[0].aggregationType, a.timeframe, clock[0]));
        match Push(store, alerts, a.url, Derived(a, pairs[0]), sample)
        case None => Progress(store, alerts, false)
        case Some(p) =>
          var r := TickPairs(p.store, p.alerts, a, f, pairs[1..], clock[1..]);
          assert forall i :: 1 <= i < |pairs| ==> pairs[1..][i - 1] == pairs[i];
          r
  }

  /** One tick of a started aggregator. The display of the results is not modelled. */
  function Tick(store: DataStore, alerts: AlertService, a: Aggregator, f: Aggregation, clock: seq<int>): (r: Progress)
    requires |clock| == |Pairs(a.metrics)|
    ensures r.store.metrics.Keys == store.metrics.Keys
    ensures |alerts.alerts| <= |r.alerts.alerts| && r.alerts.alerts[..|alerts.alerts|] == alerts.alerts
  {
    TickPairs(store, alerts, a, f, Pairs(a.metrics), clock)
  }

  /**
   The store layout a tick expects: the sources and the derived metrics
   exist, no derived key is also a source, and no two pairs share a derived
   key.
   */
  ghost predicate Separated(store: DataStore, a: Aggregator, pairs: seq<Pair>)
  {
    && a.url in store.metrics
    && (forall i :: 0 <= i < |pairs| ==> pairs[i].metricName in store.metrics[a.url])
    && (forall i :: 0 <= i < |pairs| ==> Derived(a, pairs[i]) in store.metrics[a.url])
    && (forall i, j :: 0 <= i < |pairs| && 0 <= j < |pairs| ==> Derived(a, pairs[i]) != pairs[j].metricName)
    && (forall i, j :: 0 <= i < j < |pairs| ==> Derived(a, pairs[i]) != Derived(a, pairs[j]))
  }

  /** The `n` characters of `s` from position `k`. */
  function Piece(s: string, k: nat, n: nat): (r: string)
    requires k + n <= |s|
    ensures |r| == n && forall i :: 0 <= i < n ==> r[i] == s[k + i]
  {
    s[k..k + n]
  }

  /** `x` occurs in `s` as a contiguous piece. */
  predicate Infix(x: string, s: string)
  {
    exists k: nat :: k + |x| <= |s| && Piece(s, k, |x|) == x
  }

  /** Splitting at the last separator: a separator-free tail is recovered exactly. */
  lemma SplitAtLastSeparator(x: string, y: string, u: string, v: string)
    requires '_' !in y && '_' !in v && x + "_" + y == u + "_" + v
    ensures x == u && y == v
  {
    var s := x + "_" + y;
    assert s[|x|] == '_';
    assert (u + "_" + v)[|u|] == '_';
    if |y| < |v| {
      assert false;
    } else if |v| < |y| {
      assert false;
    }
    assert x == s[..|x|] == u;
    assert y == s[|x| + 1..] == v;
  }

  /**
   Within one aggregator, separator-free aggregation types make the derived
   key determine the pair, whatever the metric and aggregator names hold.
   */
  lemma SameAggregatorInjective(m1: string, m2: string, a: string, t1: string, t2: string)
    requires '_' !in t1 && '_' !in t2
    requires DerivedName(m1, a, t1) == DerivedName(m2, a, t2)
    ensures m1 == m2 && t1 == t2
  {
    SplitAtLastSeparator(m1 + "_" + a, t1, m2 + "_" + a, t2);
    assert m1 == (m1 + "_" + a)[..|m1|];
    assert m2 == (m2 + "_" + a)[..|m2|];
  }

  /** A derived key holds `_<aggregatorName>_` right after its source name. */
  lemma DerivedHoldsAggregator(m: string, a: string, t: string)
    ensures Infix("_" + a + "_", DerivedName(m, a, t))
  {
    var d := DerivedName(m, a, t);
    var x := "_" + a + "_";
    assert d == m + x + t;
    assert Piece(d, |m|, |x|) == x;
  }

  /**
   The conditions of `Separated` on names follow from two facts about the
   configuration: aggregation types hold no separator, and no source name
   contains `_<aggregatorName>_`. Then a derived key is never a source name,
   and distinct pairs have distinct derived keys.
   */
  lemma NamingSeparates(a: Aggregator, pairs: seq<Pair>)
    requires forall i :: 0 <= i < |pairs| ==> '_' !in pairs[i].aggregationType
    requires forall j :: 0 <= j < |pairs| ==> !Infix("_" + a.name + "_", pairs[j].metricName)
    requires forall i, j :: 0 <= i < j < |pairs| ==> pairs[i] != pairs[j]
    ensures forall i, j :: 0 <= i < |pairs| && 0 <= j < |pairs| ==> Derived(a, pairs[i]) != pairs[j].metricName
    ensures forall i, j :: 0 <= i < j < |pairs| ==> Derived(a, pairs[i]) != Derived(a, pairs[j])
  {
    forall i, j | 0 <= i < |pairs| && 0 <= j < |pairs|
      ensures Derived(a, pairs[i]) != pairs[j].metricName
    {
      DerivedHoldsAggregator(pairs[i].metricName, a.name, pairs[i].aggregationType);
    }
    forall i, j | 0 <= i < j < |pairs|
      ensures Derived(a, pairs[i]) != Derived(a, pairs[j])
    {
      if Derived(a, pairs[i]) == Derived(a, pairs[j]) {
        SameAggregatorInjective(pairs[i].metricName, pairs[j].metricName, a.name,
                                pairs[i].aggregationType, pairs[j].aggregationType);
      }
    }
  }

  /** The unit test's aggregator `1_minute` over `test_metric` with `SUM` meets those conditions. */
  lemma UnitTestNamesSeparate(a: Aggregator)
    requires a.name == "1_minute" && a.metrics == [Entry("test_metric", ["SUM"])]
    ensures var pairs := Pairs(a.metrics);
      && pairs == [Pair("test_metric", "SUM")]
      && Derived(a, pairs[0]) == "test_metric_1_minute_SUM"
      && Derived(a, pairs[0]) != pairs[0].metricName
  {
    var x := "_1_minute_";
    var m := "test_metric";
    assert !Infix(x, m) by {
      forall k: nat | k + |x| <= |m| ensures Piece(m, k, |x|) != x {
        assert Piece(m, k, |x|)[0] == m[k] != '_';
      }
    }
    assert Pairs(a.metrics) == [Pair("test_metric", "SUM")];
    NamingSeparates(a, Pairs(a.metrics));
  }

  /** The sample a tick pushes for a pair at time `now`. */
  function Reading(store: DataStore, a: Aggregator, f: Aggregation, p: Pair, now: int): Sample
    requires a.url in store.metrics && p.metricName in store.metrics[a.url]
  {
    Sample(now, f(store.metrics[a.url][p.metricName].samples, p.aggregationType, a.timeframe, now))
  }

  /**
   On a separated store a tick completes, and every derived metric gets
   exactly one new sample at its tail: the source's aggregation at the
   instant read for that pair, stamped with that instant.
   */
  lemma {:induction false} TickPushesOncePerPair(store: DataStore, alerts: AlertService, a: Aggregator, f: Aggregation, pairs: seq<Pair>, clock: seq<int>)
    requires |clock| == |pairs| && Separated(store, a, pairs)
    ensures var r := TickPairs(store, alerts, a, f, pairs, clock);
      && r.ok
      && forall i :: 0 <= i < |pairs| ==>
        var m := store.metrics[a.url][Derived(a, pairs[i])];
        Get(r.store, a.url, Derived(a, pairs[i])) == Some(m.(samples := m.samples + [Reading(store, a, f, pairs[i], clock[i])]))
    decreases |pairs|
  {
    if pairs != [] {
      var d0 := Derived(a, pairs[0]);
      var sample := Reading(store, a, f, pairs[0], clock[0]);
      var p := Push(store, alerts, a.url, d0, sample).value;
      var tail := pairs[1..];
      assert forall i :: 1 <= i < |pairs| ==> tail[i - 1] == pairs[i];
      forall i | 0 <= i < |tail|
        ensures tail[i].metricName in p.store.metrics[a.url]
        ensures Derived(a, tail[i]) in p.store.metrics[a.url]
        ensures Get(p.store, a.url, tail[i].metricName) == Get(store, a.url, tail[i].metricName)
        ensures Get(p.store, a.url, Derived(a, tail[i])) == Get(store, a.url, Derived(a, tail[i]))
      {
        assert d0 != tail[i].metricName && d0 != Derived(a, tail[i]);
      }
      assert Separated(p.store, a, tail);
      TickPushesOncePerPair(p.store, p.alerts, a, f, tail, clock[1..]);
      var r := TickPairs(store, alerts, a, f, pairs, clock);
      assert r == TickPairs(p.store, p.alerts, a, f, tail, clock[1..]);
      forall i | 0 <= i < |pairs|
        ensures var m := store.metrics[a.url][Derived(a, pairs[i])];
          Get(r.store, a.url, Derived(a, pairs[i])) == Some(m.(samples := m.samples + [Reading(store, a, f, pairs[i], clock[i])]))
      {
        if i == 0 {
          assert NotDerived(a, tail, d0) by {
            forall k | 0 <= k < |tail| ensures Derived(a, tail[k]) != d0 {
              assert Derived(a, pairs[k + 1]) != Derived(a, pairs[0]);
            }
          }
        } else {
          assert tail[i - 1] == pairs[i];
          assert Reading(p.store, a, f, tail[i - 1], clock[1..][i - 1]) == Reading(store, a, f, pairs[i], clock[i]);
        }
      }
    }
  }

  /** The clock of a tick during which `Date.now()` does not move. */
  function Frozen(n: nat, now: int): (c: seq<int>)
    ensures |c| == n && forall i :: 0 <= i < n ==> c[i] == now
  {
    seq(n, _ => now)
  }

  /** With one `now` for the whole tick, every derived metric's new tail sample is stamped `now`. */
  lemma TickAtOneInstant(store: DataStore, alerts: AlertService, a: Aggregator, f: Aggregation, now: int, i: nat)
    requires Separated(store, a, Pairs(a.metrics)) && i < |Pairs(a.metrics)|
    ensures var pairs := Pairs(a.metrics);
      var r := Tick(store, alerts, a, f, Frozen(|pairs|, now));
      var before := store.metrics[a.url][Derived(a, pairs[i])].samples;
      && r.ok
      && Get(r.store, a.url, Derived(a, pairs[i])).Some?
      && Get(r.store, a.url, Derived(a, pairs[i])).value.samples == before + [Reading(store, a, f, pairs[i], now)]
  {
    var pairs := Pairs(a.metrics);
    TickPushesOncePerPair(store, alerts, a, f, pairs, Frozen(|pairs|, now));
  }

  /** The aggregation service's registry, keyed `url + '_' + aggregatorName`. */
  type AggregationService = Registry<Aggregator>

  function ServiceKey(url: string, aggregatorName: string): (k: string)
    ensures url + "_" <= k
  {
    url + "_" + aggregatorName
  }

  /** The registry key is not injective: an underscore in the url or the name lets two aggregators share one entry. */
  lemma ServiceKeyCollision()
    ensures ServiceKey("a_b", "c") == ServiceKey("a", "b_c")
  {
  }

  datatype Installed = Installed(service: AggregationService, timers: Timers, store: DataStore)

  /**
   `_setAggregator`: the aggregator under the key, if any, is stopped; a new
   one is constructed (registering its derived metrics) and started.
   */
  function SetAggregator(svc: AggregationService, timers: Timers, store: DataStore, url: string, name: string, settings: Config.AggregatorConf): (r: Installed)
    requires Valid(timers) && Issued(svc, timers)
    ensures var k := ServiceKey(url, name);
      && r.service.Keys == svc.Keys + {k}
      && r.service[k].body == Construct(store, url, name, settings).0
      && Running(r.service[k], r.timers)
      && (k in svc ==> !Running(svc[k], r.timers))
      && (forall k' :: k' in svc && k' != k ==> r.service[k'] == svc[k'])
    ensures Valid(r.timers) && Issued(r.service, r.timers)
    ensures timers.next <= r.timers.next && forall h :: h in r.timers.live && h !in timers.live ==> timers.next <= h
    ensures r.store == Construct(store, url, name, settings).1
    ensures forall i, j :: 0 <= i < |settings.metrics| && 0 <= j < |settings.metrics[i].val| ==>
      HoldsEmpty(r.store, url, DerivedName(settings.metrics[i].key, name, settings.metrics[i].val[j]))
    ensures forall u, n :: u in store.metrics && (u != url || NotDerived(r.service[ServiceKey(url, name)].body, Pairs(settings.metrics), n)) ==>
      Get(r.store, u, n) == Get(store, u, n)
  {
    var (a, store') := Construct(store, url, name, settings);
    var (svc', timers') := Install(svc, timers, ServiceKey(url, name), a);
    Installed(svc', timers', store')
  }

  /** `_delAggregator`: stop and forget; the key must exist. Derived metrics stay in the store. */
  function DelAggregator(svc: AggregationService, timers: Timers, url: string, name: string): (r: (AggregationService, Timers))
    requires ServiceKey(url, name) in svc
    ensures r.0 == svc - {ServiceKey(url, name)}
    ensures !Running(svc[ServiceKey(url, name)], r.1)
    ensures r.1.live <= timers.live && r.1.next == timers.next
  {
    Uninstall(svc, timers, ServiceKey(url, name))
  }

  /**
   Setting an aggregator twice under one key leaves one entry whose
   instance runs while the first one is stopped; deleting it then leaves no
   entry and no timer of its own.
   */
  lemma RegisterThenUnregister(svc: AggregationService, timers: Timers, store: DataStore, url: string, name: string, s1: Config.AggregatorConf, s2: Config.AggregatorConf)
    requires ServiceKey(url, name) !in svc && Tracks(svc, timers, {})
    ensures var k := ServiceKey(url, name);
      var first := SetAggregator(svc, timers, store, url, name, s1);
      var second := SetAggregator(first.service, first.timers, first.store, url, name, s2);
      var gone := DelAggregator(second.service, second.timers, url, name);
      && !Running(first.service[k], second.timers)
      && Running(second.service[k], second.timers)
      && gone.0 == svc
      && gone.1.live == timers.live
  {
    var k := ServiceKey(url, name);
    var first := SetAggregator(svc, timers, store, url, name, s1);
    var second := SetAggregator(first.service, first.timers, first.store, url, name, s2);
    ReplaceThenRemove(svc, timers, k, Construct(store, url, name, s1).0, Construct(first.store, url, name, s2).0);
  }
}

=== FILE: alert.dfy ===
/**
 The alert service (alert.js): one shared triggered flag per
 `url + '_' + alertName`, an append-only alert log, and the threshold
 evaluation run on every sample pushed to a watched metric.
 */
module Alert {
  import opened Dict
  import opened Metric
  import opened Store

  datatype Kind = Down | Recovered

  /**
   One alert log line, kept structured; `Text` renders it as the source
   writes it.
   */
  datatype LogLine = LogLine(kind: Kind, url: string, alertName: string, value: Value, timestamp: int)

  datatype AlertService = AlertService(triggered: map<string, bool>, alerts: seq<LogLine>)

  /** The `AlertService` constructor: no alert is triggered and nothing is logged. */
  function Init(): (r: AlertService)
    ensures forall k :: !IsTriggered(r, k)
    ensures r.alerts == []
  {
    AlertService(map[], [])
  }

  /** The key of the shared flag, `url + '_' + alertName`. */
  function FlagKey(url: string, alertName: string): string
  {
    url + "_" + alertName
  }

  /** The subscription key an alert registers on its metric. */
  function WatchKey(alertName: string): string
  {
    "alert_" + alertName
  }

  /** An absent flag reads as `undefined`, which is falsy. */
  predicate IsTriggered(s: AlertService, k: string)
  {
    k in s.triggered && s.triggered[k]
  }

  /*
   JavaScript's relational operators on a sample value: `undefined` and
   objects compare as NaN, so every comparison with them is false.
   */
  predicate Less(v: Value, b: real)    { v.Num? && v.n < b }
  predicate Greater(v: Value, b: real) { v.Num? && v.n > b }
  predicate AtLeast(v: Value, b: real) { v.Num? && v.n >= b }
  predicate AtMost(v: Value, b: real)  { v.Num? && v.n <= b }

  /** The value lies outside the bound named by `kind`; other setting names never breach. */
  predicate Breached(kind: string, v: Value, b: real)
  {
    (kind == "min" && Less(v, b)) || (kind == "max" && Greater(v, b))
  }

  /** The value lies within the bound named by `kind`; other setting names never clear. */
  predicate Cleared(kind: string, v: Value, b: real)
  {
    (kind == "min" && AtLeast(v, b)) || (kind == "max" && AtMost(v, b))
  }

  function Line(kind: Kind, url: string, alertName: string, sample: Sample): LogLine
  {
    LogLine(kind, url, alertName, sample.value, sample.timestamp)
  }

  /** `pushAlert` followed by setting the flag, as `trigger` and `recover` do. */
  function Record(s: AlertService, kind: Kind, url: string, alertName: string, sample: Sample): (r: AlertService)
    ensures r.alerts == s.alerts + [Line(kind, url, alertName, sample)]
    ensures IsTriggered(r, FlagKey(url, alertName)) <==> kind == Down
    ensures FlagKey(url, alertName) in r.triggered
    ensures r.triggered - {FlagKey(url, alertName)} == s.triggered - {FlagKey(url, alertName)}
  {
    AlertService(s.triggered[FlagKey(url, alertName) := kind == Down], s.alerts + [Line(kind, url, alertName, sample)])
  }

  /**
   One iteration of `_newValue`'s loop: the setting named `kind` with
   bound `b`. The flag moves Normal -> Triggered exactly on a breach and
   Triggered -> Normal exactly on a clear; each move logs one line of the
   matching kind, and nothing is logged without a move.
   */
  function Evaluate(s: AlertService, url: string, alertName: string, kind: string, b: real, sample: Sample): (r: AlertService)
    ensures var k := FlagKey(url, alertName);
      && (!IsTriggered(s, k) ==> (IsTriggered(r, k) <==> Breached(kind, sample.value, b)))
      && (IsTriggered(s, k) ==> (IsTriggered(r, k) <==> !Cleared(kind, sample.value, b)))
    ensures var k := FlagKey(url, alertName);
      IsTriggered(r, k) == IsTriggered(s, k) ==> r == s
    ensures var k := FlagKey(url, alertName);
      IsTriggered(r, k) != IsTriggered(s, k) ==>
        r.alerts == s.alerts + [Line(if IsTriggered(r, k) then Down else Recovered, url, alertName, sample)]
    ensures r.triggered - {FlagKey(url, alertName)} == s.triggered - {FlagKey(url, alertName)}
  {
    var k := FlagKey(url, alertName);
    if kind == "min" then
      if Less(sample.value, b) && !IsTriggered(s, k) then Record(s, Down, url, alertName, sample)
      else if AtLeast(sample.value, b) && IsTriggered(s, k) then Record(s, Recovered, url, alertName, sample)
      else s
    else if kind == "max" then
      if Greater(sample.value, b) && !IsTriggered(s, k) then Record(s, Down, url, alertName, sample)
      else if AtMost(sample.value, b) && IsTriggered(s, k) then Record(s, Recovered, url, alertName, sample)
      else s
    else s
  }

  /** Every line after position `n` of `r`'s log is about this alert and this sample. */
  ghost predicate LinesAbout(r: AlertService, n: nat, url: string, alertName: string, sample: Sample)
  {
    forall i :: n <= i < |r.alerts| ==>
      r.alerts[i].url == url && r.alerts[i].alertName == alertName &&
      r.alerts[i].value == sample.value && r.alerts[i].timestamp == sample.timestamp
  }

  /**
   `_newValue`: the settings are evaluated in their key order against one
   shared flag. The log only grows, by at most one line per setting, every
   new line is about this alert and this sample, and no other alert's flag
   changes.
   */
  function NewValue(s: AlertService, url: string, alertName: string, settings: Thresholds, sample: Sample): (r: AlertService)
    ensures |s.alerts| <= |r.alerts| <= |s.alerts| + |settings|
    ensures r.alerts[..|s.alerts|] == s.alerts
    ensures LinesAbout(r, |s.alerts|, url, alertName, sample)
    ensures r.triggered - {FlagKey(url, alertName)} == s.triggered - {FlagKey(url, alertName)}
    decreases |settings|
  {
    if settings == [] then s
    else
      var s1 := Evaluate(s, url, alertName, settings[0].key, settings[0].val, sample);
      NewValue(s1, url, alertName, settings[1..], sample)
  }

  /** With a `min` setting alone: below it from Normal logs "down", at or above it from Triggered logs "recovered". */
  lemma MinThreshold(s: AlertService, url: string, alertName: string, b: real, sample: Sample)
    ensures var r := NewValue(s, url, alertName, [Entry("min", b)], sample);
      var k := FlagKey(url, alertName);
      && (Less(sample.value, b) && !IsTriggered(s, k) ==>
            r.alerts == s.alerts + [Line(Down, url, alertName, sample)] && IsTriggered(r, k))
      && (AtLeast(sample.value, b) && IsTriggered(s, k) ==>
            r.alerts == s.alerts + [Line(Recovered, url, alertName, sample)] && !IsTriggered(r, k))
      && (!Less(sample.value, b) && !IsTriggered(s, k) ==> r == s)
      && (!AtLeast(sample.value, b) && IsTriggered(s, k) ==> r == s)
  {
    assert [Entry("min", b)][1..] == [];
  }

  /** The mirror image for a `max` setting alone. */
  lemma MaxThreshold(s: AlertService, url: string, alertName: string, b: real, sample: Sample)
    ensures var r := NewValue(s, url, alertName, [Entry("max", b)], sample);
      var k := FlagKey(url, alertName);
      && (Greater(sample.value, b) && !IsTriggered(s, k) ==>
            r.alerts == s.alerts + [Line(Down, url, alertName, sample)] && IsTriggered(r, k))
      && (AtMost(sample.value, b) && IsTriggered(s, k) ==>
            r.alerts == s.alerts + [Line(Recovered, url, alertName, sample)] && !IsTriggered(r, k))
      && (!Greater(sample.value, b) && !IsTriggered(s, k) ==> r == s)
      && (!AtMost(sample.value, b) && IsTriggered(s, k) ==> r == s)
  {
    assert [Entry("max", b)][1..] == [];
  }

  /** No setting moves the flag it starts from. */
  ghost predicate Quiet(triggered: bool, settings: Thresholds, v: Value)
  {
    forall i :: 0 <= i < |settings| ==>
      if triggered then !Cleared(settings[i].key, v, settings[i].val)
      else !Breached(settings[i].key, v, settings[i].val)
  }

  /** A sample that crosses none of the settings changes neither the flags nor the log. */
  lemma {:induction false} QuietSampleChangesNothing(s: AlertService, url: string, alertName: string, settings: Thresholds, sample: Sample)
    requires Quiet(IsTriggered(s, FlagKey(url, alertName)), settings, sample.value)
    ensures NewValue(s, url, alertName, settings, sample) == s
    decreases |settings|
  {
    if settings != [] {
      var s1 := Evaluate(s, url, alertName, settings[0].key, settings[0].val, sample);
      assert s1 == s;
      assert Quiet(IsTriggered(s, FlagKey(url, alertName)), settings[1..], sample.value) by {
        forall i | 0 <= i < |settings[1..]| ensures settings[1..][i] == settings[i + 1] { }
      }
      QuietSampleChangesNothing(s, url, alertName, settings[1..], sample);
    }
  }

  /**
   With `{min, max}` and min <= max, one sample below `min` from Normal
   logs a trigger and, in the same call, a recovery through the shared flag,
   ending Normal.
   */
  lemma MinMaxLowSample(s: AlertService, url: string, alertName: string, lo: real, hi: real, sample: Sample)
    requires lo <= hi && Less(sample.value, lo)
    requires !IsTriggered(s, FlagKey(url, alertName))
    ensures var r := NewValue(s, url, alertName, [Entry("min", lo), Entry("max", hi)], sample);
      && r.alerts == s.alerts + [Line(Down, url, alertName, sample), Line(Recovered, url, alertName, sample)]
      && !IsTriggered(r, FlagKey(url, alertName))
  {
    var settings := [Entry("min", lo), Entry("max", hi)];
    var s1 := Evaluate(s, url, alertName, "min", lo, sample);
    assert settings[1..] == [Entry("max", hi)] && settings[1..][1..] == [];
    var s2 := Evaluate(s1, url, alertName, "max", hi, sample);
    assert NewValue(s1, url, alertName, settings[1..], sample) == NewValue(s2, url, alertName, [], sample) == s2;
  }

  /** The same sample with the keys in the order `{max, min}` logs only the trigger and ends Triggered. */
  lemma MaxMinLowSample(s: AlertService, url: string, alertName: string, lo: real, hi: real, sample: Sample)
    requires lo <= hi && Less(sample.value, lo)
    requires !IsTriggered(s, FlagKey(url, alertName))
    ensures var r := NewValue(s, url, alertName, [Entry("max", hi), Entry("min", lo)], sample);
      && r.alerts == s.alerts + [Line(Down, url, alertName, sample)]
      && IsTriggered(r, FlagKey(url, alertName))
  {
    var settings := [Entry("max", hi), Entry("min", lo)];
    var s1 := Evaluate(s, url, alertName, "max", hi, sample);
    assert s1 == s;
    assert settings[1..] == [Entry("min", lo)] && settings[1..][1..] == [];
    var s2 := Evaluate(s1, url, alertName, "min", lo, sample);
    assert NewValue(s1, url, alertName, settings[1..], sample) == NewValue(s2, url, alertName, [], sample) == s2;
  }

  /**
   With `{min, max}`, a flag raised by the `max` bound is cleared by a later
   sample that lies below `min`: the log says "recovered" while the value
   breaches the other bound.
   */
  lemma MinMaxRecoversBelowMin(s: AlertService, url: string, alertName: string, lo: real, hi: real, sample: Sample)
    requires lo <= hi && Less(sample.value, lo)
    requires IsTriggered(s, FlagKey(url, alertName))
    ensures var r := NewValue(s, url, alertName, [Entry("min", lo), Entry("max", hi)], sample);
      && r.alerts == s.alerts + [Line(Recovered, url, alertName, sample)]
      && !IsTriggered(r, FlagKey(url, alertName))
  {
    var settings := [Entry("min", lo), Entry("max", hi)];
    var s1 := Evaluate(s, url, alertName, "min", lo, sample);
    assert s1 == s;
    assert settings[1..] == [Entry("max", hi)] && settings[1..][1..] == [];
    var s2 := Evaluate(s1, url, alertName, "max", hi, sample);
    assert NewValue(s1, url, alertName, settings[1..], sample) == NewValue(s2, url, alertName, [], sample) == s2;
  }

  /** The state after an alert handler; `ok` is false when the source throws a TypeError. */
  datatype Handled = Handled(service: AlertService, store: DataStore, ok: bool)

  /**
   `_alertSet`: the flag is reset to false whatever it was, then the watch
   is registered under `'alert_' + alertName` on the metric named like the
   alert. When that metric is missing the source throws after the reset.
   */
  function AlertSet(s: AlertService, store: DataStore, url: string, alertName: string, settings: Thresholds): (r: Handled)
    requires url in store.metrics
    ensures FlagKey(url, alertName) in r.service.triggered && !r.service.triggered[FlagKey(url, alertName)]
    ensures r.service.triggered - {FlagKey(url, alertName)} == s.triggered - {FlagKey(url, alertName)}
    ensures r.service.alerts == s.alerts
    ensures r.ok <==> alertName in store.metrics[url]
    ensures r.store.metrics.Keys == store.metrics.Keys
    ensures !r.ok ==> r.store == store
    ensures r.ok ==> (url in r.store.metrics &&
      var m := store.metrics[url][alertName];
      var m' := Get(r.store, url, alertName);
      && m'.Some?
      && m'.value.samples == m.samples
      && Lookup(m'.value.subscribers, WatchKey(alertName)) == Some(AlertWatch(url, alertName, settings))
      && (forall k :: k != WatchKey(alertName) ==> Lookup(m'.value.subscribers, k) == Lookup(m.subscribers, k)))
    ensures r.ok ==> forall u, n :: u in store.metrics && (u != url || n != alertName) ==> Get(r.store, u, n) == Get(store, u, n)
  {
    var s' := s.(triggered := s.triggered[FlagKey(url, alertName) := false]);
    match Get(store, url, alertName)
    case None => Handled(s', store, false)
    case Some(m) =>
      Handled(s', Set(store, url, alertName, Subscribe(m, WatchKey(alertName), AlertWatch(url, alertName, settings))), true)
  }

  /**
   `_alertDel`: removes only the `'alert_' + alertName` subscription; the
   flags and the log are not touched. A missing metric is a TypeError.
   */
  function AlertDel(store: DataStore, url: string, alertName: string): (r: Option<DataStore>)
    requires url in store.metrics
    ensures r.Some? <==> alertName in store.metrics[url]
    ensures r.Some? ==> r.value.metrics.Keys == store.metrics.Keys
    ensures r.Some? ==> (url in r.value.metrics &&
      var m := store.metrics[url][alertName];
      var m' := Get(r.value, url, alertName);
      && m'.Some?
      && m'.value.samples == m.samples
      && Lookup(m'.value.subscribers, WatchKey(alertName)) == None
      && (forall k :: k != WatchKey(alertName) ==> Lookup(m'.value.subscribers, k) == Lookup(m.subscribers, k)))
    ensures r.Some? ==> forall u, n :: u in store.metrics && (u != url || n != alertName) ==> Get(r.value, u, n) == Get(store, u, n)
  {
    match Get(store, url, alertName)
    case None => None
    case Some(m) => Some(Set(store, url, alertName, Unsubscribe(m, WatchKey(alertName))))
  }

  /**
   Registering an alert on a metric that had no alert watch and removing
   it again gives the metric back its exact subscriber table, so the
   subscriber count drops back.
   */
  lemma SetThenDelRestoresSubscribers(s: AlertService, store: DataStore, url: string, alertName: string, settings: Thresholds)
    requires url in store.metrics && alertName in store.metrics[url]
    requires WatchKey(alertName) !in KeySet(store.metrics[url][alertName].subscribers)
    ensures var h := AlertSet(s, store, url, alertName, settings);
      && h.ok && url in h.store.metrics
      && var d := AlertDel(h.store, url, alertName);
      && d.Some?
      && d.value.metrics[url][alertName] == store.metrics[url][alertName]
      && |d.value.metrics[url][alertName].subscribers| + 1 == |h.store.metrics[url][alertName].subscribers|
  {
    var m := store.metrics[url][alertName];
    PutThenRemove(m.subscribers, WatchKey(alertName), AlertWatch(url, alertName, settings));
  }

  /** Delivery of one pushed sample to a metric's subscribers, in subscription order. */
  function Deliver(s: AlertService, subs: Dict<Subscriber>, sample: Sample): (r: AlertService)
    ensures |s.alerts| <= |r.alerts| && r.alerts[..|s.alerts|] == s.alerts
    decreases |subs|
  {
    if subs == [] then s
    else
      var w := subs[0].val;
      Deliver(NewValue(s, w.url, w.alertName, w.settings, sample), subs[1..], sample)
  }

  /** A number as JavaScript's `String(n)` writes it; not part of this model. */
  type NumberText = real -> string

  /** A sample value interpolated into a template string. */
  function ValueText(v: Value, num: NumberText): string
  {
    match v
    case Num(n) => num(n)
    case Undefined => "undefined"
    case Keyed(_) => "[object Object]"
  }

  /**
   The log line as the source writes it. A trigger reads "Website <url> is
   down." and a recovery "[Recovered] Website <url> is up.", which is what
   the integration tests match.
   */
  function Text(line: LogLine, num: NumberText): (t: string)
    ensures line.kind == Down ==> "Website " + line.url + " is down." <= t
    ensures line.kind == Recovered ==> "[Recovered] Website " + line.url + " is up." <= t
  {
    var tail := line.alertName + "=" + ValueText(line.value, num) + ", time=" + num(line.timestamp as real);
    var head := if line.kind == Down then "Website " + line.url + " is down."
                else "[Recovered] Website " + line.url + " is up.";
    var t := head + " " + tail;
    assert t == head + (" " + tail);
    t
  }
}

=== FILE: check.dfy ===
/**
 The check service (check.js): one checker per website periodically sends
 a GET request and turns its outcome into samples of the website's
 enabled metrics.
 */
module Check {
  import opened Dict
  import opened Metric
  import opened Store
  import opened Alert
  import opened Pipeline
  import opened Timers
  import Config

  /** The metrics a checker can feed, in the order a response feeds them. */
  const MetricList: seq<string> := ["availability", "response_time", "response_code"]

  /** `Number(code < 400)`. */
  function StatusCodeToAvailability(code: int): (r: int)
    ensures r == 0 || r == 1
    ensures r == 1 <==> code < 400
  {
    if code < 400 then 1 else 0
  }

  /** A checker is bound to its website's url; its `config` is read from the live configuration at each push. */
  datatype Checker = Checker(url: string)

  /** `addMetric(enabled, name)`: a new, empty metric replaces whatever was stored, but only when enabled. */
  function AddMetric(store: DataStore, c: Checker, enabled: bool, name: string): (r: DataStore)
    ensures !enabled ==> r == store
    ensures enabled ==> r.metrics.Keys == store.metrics.Keys + {c.url}
    ensures enabled ==> Get(r, c.url, name) == Some(Fresh(name))
    ensures forall u, n :: u in store.metrics && (u != c.url || n != name) ==> Get(r, u, n) == Get(store, u, n)
  {
    if enabled then Set(store, c.url, name, Fresh(name)) else store
  }

  /** One reading of a request outcome, for the metric it names. */
  datatype Reading = Reading(metricName: string, sample: Sample)

  /** What the request callback receives: an error, or a response with its status and elapsed time. */
  datatype Outcome = RequestError | Response(statusCode: int, elapsedTime: real)

  /**
   The request callback's pushes: an error is one zero availability; a
   response gives availability, response time and status code, in that
   order. Every reading carries the time the request was sent.
   */
  function Readings(o: Outcome, startTime: int): (r: seq<Reading>)
    ensures forall i :: 0 <= i < |r| ==> r[i].sample.timestamp == startTime
    ensures o.RequestError? ==> r == [Reading("availability", Sample(startTime, Num(0.0)))]
    ensures o.Response? ==> |r| == |MetricList| && forall i :: 0 <= i < |r| ==> r[i].metricName == MetricList[i]
    ensures o.Response? ==>
      && r[0].sample.value == Num(StatusCodeToAvailability(o.statusCode) as real)
      && r[1].sample.value == Num(o.elapsedTime)
      && r[2].sample.value == Num(o.statusCode as real)
  {
    match o
    case RequestError => [Reading("availability", Sample(startTime, Num(0.0)))]
    case Response(code, elapsed) =>
      [ Reading("availability", Sample(startTime, Num(StatusCodeToAvailability(code) as real))),
        Reading("response_time", Sample(startTime, Num(elapsed))),
        Reading("response_code", Sample(startTime, Num(code as real))) ]
  }

  /** The availability reading of an outcome is 1 exactly for a response below 400. */
  lemma AvailableIffBelow400(o: Outcome, startTime: int)
    ensures Readings(o, startTime)[0].metricName == "availability"
    ensures Readings(o, startTime)[0].sample.value == Num(1.0) <==> o.Response? && o.statusCode < 400
  {
  }

  predicate Enabled(metrics: Dict<bool>, name: string)
  {
    Lookup(metrics, name) == Some(true)
  }

  /**
   `pushValue(name, timestamp, value)`: nothing happens unless the website's
   live `metrics` setting enables the name; then the metric must exist
   (otherwise a TypeError, `None`) and receives the sample.
   */
  function PushValue(store: DataStore, alerts: AlertService, url: string, metrics: Dict<bool>, reading: Reading): (r: Option<Pushed>)
    ensures !Enabled(metrics, reading.metricName) ==> r == Some(Pushed(store, alerts))
    ensures Enabled(metrics, reading.metricName) ==>
      (r.Some? <==> url in store.metrics && reading.metricName in store.metrics[url])
    ensures r.Some? && Enabled(metrics, reading.metricName) ==>
      && url in store.metrics && reading.metricName in store.metrics[url] && url in r.value.store.metrics
      && var m := store.metrics[url][reading.metricName];
      && Get(r.value.store, url, reading.metricName) == Some(Append(m, reading.sample))
      && r.value.alerts == Deliver(alerts, m.subscribers, reading.sample)
    ensures r.Some? ==> r.value.store.metrics.Keys == store.metrics.Keys
    ensures r.Some? ==> forall u, n :: u in store.metrics && (u != url || n != reading.metricName) ==>
      Get(r.value.store, u, n) == Get(store, u, n)
  {
    if !Enabled(metrics, reading.metricName) then Some(Pushed(store, alerts))
    else if url !in store.metrics then None
    else Push(store, alerts, url, reading.metricName, reading.sample)
  }

  ghost predicate Untouched(readings: seq<Reading>, n: string)
  {
    forall i :: 0 <= i < |readings| ==> readings[i].metricName != n
  }

  /** The pushes of one request callback in order; a TypeError ends the callback. */
  function Record(store: DataStore, alerts: AlertService, url: string, metrics: Dict<bool>, readings: seq<Reading>): (r: Option<Pushed>)
    ensures r.Some? ==> r.value.store.metrics.Keys == store.metrics.Keys
    ensures r.Some? ==> |alerts.alerts| <= |r.value.alerts.alerts| && r.value.alerts.alerts[..|alerts.alerts|] == alerts.alerts
    ensures r.Some? ==> forall u, n :: u in store.metrics && (u != url || Untouched(readings, n)) ==>
      Get(r.value.store, u, n) == Get(store, u, n)
    ensures (forall i :: 0 <= i < |readings| ==> !Enabled(metrics, readings[i].metricName)) ==> r == Some(Pushed(store, alerts))
    decreases |readings|
  {
    if readings == [] then Some(Pushed(store, alerts))
    else match PushValue(store, alerts, url, metrics, readings[0])
      case None => None
      case Some(p) =>
        assert forall i :: 1 <= i < |readings| ==> readings[1..][i - 1] == readings[i];
        Record(p.store, p.alerts, url, metrics, readings[1..])
  }

  /**
   With distinct metric names, every enabled one present in the store,
   the callback completes and each enabled metric gets exactly its reading
   at its tail; disabled ones are left alone.
   */
  lemma {:induction false} RecordOncePerMetric(store: DataStore, alerts: AlertService, url: string, metrics: Dict<bool>, readings: seq<Reading>)
    requires url in store.metrics
    requires forall i, j :: 0 <= i < j < |readings| ==> readings[i].metricName != readings[j].metricName
    requires forall i :: 0 <= i < |readings| && Enabled(metrics, readings[i].metricName) ==> readings[i].metricName in store.metrics[url]
    ensures var r := Record(store, alerts, url, metrics, readings);
      && r.Some?
      && forall i :: 0 <= i < |readings| ==>
        Get(r.value.store, url, readings[i].metricName) ==
          if Enabled(metrics, readings[i].metricName)
          then Some(Append(store.metrics[url][readings[i].metricName], readings[i].sample))
          else Get(store, url, readings[i].metricName)
    decreases |readings|
  {
    if readings != [] {
      var n0 := readings[0].metricName;
      var p := PushValue(store, alerts, url, metrics, readings[0]).value;
      var tail := readings[1..];
      assert forall i :: 1 <= i < |readings| ==> tail[i - 1] == readings[i];
      forall i | 0 <= i < |tail|
        ensures Get(p.store, url, tail[i].metricName) == Get(store, url, tail[i].metricName)
      {
        assert n0 != tail[i].metricName;
      }
      RecordOncePerMetric(p.store, p.alerts, url, metrics, tail);
      var r := Record(p.store, p.alerts, url, metrics, tail);
      assert Record(store, alerts, url, metrics, readings) == r;
      forall i | 0 <= i < |readings|
        ensures Get(r.value.store, url, readings[i].metricName) ==
          if Enabled(metrics, readings[i].metricName)
          then Some(Append(store.metrics[url][readings[i].metricName], readings[i].sample))
          else Get(store, url, readings[i].metricName)
      {
        if i == 0 {
          assert Untouched(tail, n0) by {
            forall k | 0 <= k < |tail| ensures tail[k].metricName != n0 {
              assert readings[k + 1].metricName != readings[0].metricName;
            }
          }
        } else {
          assert tail[i - 1] == readings[i];
        }
      }
    }
  }

  /** The request callback: the website's live `metrics` setting decides what is stored. */
  function OnOutcome(store: DataStore, alerts: AlertService, url: string, metrics: Dict<bool>, o: Outcome, startTime: int): (r: Option<Pushed>)
    ensures r.Some? ==> r.value.store.metrics.Keys == store.metrics.Keys
    ensures r.Some? ==> forall u, n :: u in store.metrics && u != url ==> Get(r.value.store, u, n) == Get(store, u, n)
  {
    Record(store, alerts, url, metrics, Readings(o, startTime))
  }

  /** A failed request stores one zero availability, stamped with the send time, when availability is enabled. */
  lemma ErrorRecordsUnavailable(store: DataStore, alerts: AlertService, url: string, metrics: Dict<bool>, startTime: int)
    requires url in store.metrics && "availability" in store.metrics[url]
    ensures var r := OnOutcome(store, alerts, url, metrics, RequestError, startTime);
      var m := store.metrics[url]["availability"];
      && r.Some?
      && Get(r.value.store, url, "availability") ==
           (if Enabled(metrics, "availability") then Some(Append(m, Sample(startTime, Num(0.0)))) else Some(m))
      && forall n :: n != "availability" ==> Get(r.value.store, url, n) == Get(store, url, n)
  {
    RecordOncePerMetric(store, alerts, url, metrics, Readings(RequestError, startTime));
  }

  /** A response stores one sample per enabled metric of `MetricList`, all stamped with the send time. */
  lemma ResponseRecordsEachMetric(store: DataStore, alerts: AlertService, url: string, metrics: Dict<bool>, code: int, elapsed: real, startTime: int, i: nat)
    requires url in store.metrics && i < |MetricList|
    requires forall k :: 0 <= k < |MetricList| ==> MetricList[k] in store.metrics[url]
    ensures var r := OnOutcome(store, alerts, url, metrics, Response(code, elapsed), startTime);
      var m := store.metrics[url][MetricList[i]];
      && r.Some?
      && Get(r.value.store, url, MetricList[i]) ==
           (if Enabled(metrics, MetricList[i]) then Some(Append(m, Readings(Response(code, elapsed), startTime)[i].sample)) else Some(m))
  {
    RecordOncePerMetric(store, alerts, url, metrics, Readings(Response(code, elapsed), startTime));
  }

  /** The check service's registry, keyed by url. */
  type CheckService = Registry<Checker>

  /** `_setChecker`: the checker of the url, if any, is stopped, then a new one is installed and started. */
  function SetChecker(svc: CheckService, timers: Timers, url: string, site: Config.Site): (r: (CheckService, Timers))
    requires Valid(timers) && Issued(svc, timers)
    ensures r.0.Keys == svc.Keys + {url}
    ensures r.0[url].body == Checker(site.url) && Running(r.0[url], r.1)
    ensures url in svc ==> !Running(svc[url], r.1)
    ensures forall k :: k in svc && k != url ==> r.0[k] == svc[k]
    ensures Valid(r.1) && Issued(r.0, r.1)
    ensures timers.next <= r.1.next && forall h :: h in r.1.live && h !in timers.live ==> timers.next <= h
  {
    Install(svc, timers, url, Checker(site.url))
  }

  /** `_delChecker`: stop and forget; the url must have a checker. */
  function DelChecker(svc: CheckService, timers: Timers, url: string): (r: (CheckService, Timers))
    requires url in svc
    ensures r.0 == svc - {url}
    ensures !Running(svc[url], r.1)
    ensures r.1.live <= timers.live && r.1.next == timers.next
  {
    Uninstall(svc, timers, url)
  }

  /** `_setMetric`: the url's checker registers the metric; a url without a checker is a TypeError. */
  function SetMetric(svc: CheckService, store: DataStore, url: string, name: string, enabled: bool): (r: Option<DataStore>)
    ensures r.Some? <==> url in svc
    ensures r.Some? && enabled ==>
      svc[url].body.url in r.value.metrics && Get(r.value, svc[url].body.url, name) == Some(Fresh(name))
    ensures r.Some? && !enabled ==> r.value == store
    ensures r.Some? && enabled ==> r.value.metrics.Keys == store.metrics.Keys + {svc[url].body.url}
    ensures r.Some? ==> forall u, n :: u in store.metrics && (u != svc[url].body.url || n != name) ==>
      Get(r.value, u, n) == Get(store, u, n)
  {
    if url in svc then Some(AddMetric(store, svc[url].body, enabled, name)) else None
  }
}

=== FILE: config.dfy ===
/**
 The configuration store (config.js): the per-website configuration
 object and the table of listeners per (element, operation). Every setter
 and deleter returns the new store together with the events it fires, in
 firing order; `Calls` expands events into listener invocations.
 Listeners are identified, not run: what they do belongs to the services.
 */
module Config {
  import opened Dict
  import opened Metric

  datatype Element = WebsiteEl | MetricEl | AggregatorEl | AlertEl
  datatype Op = SetOp | DelOp
  datatype Channel = Channel(element: Element, op: Op)

  /** A registered callback, identified by registration. */
  type Listener = nat

  /** The two exceptions `on` throws. */
  datatype OnError = BadElement | BadOperation

  /** An aggregator's settings: `{timeframe, computeDelay, display, metrics}`, metrics mapping a metric name to aggregation types. */
  datatype AggregatorConf = AggregatorConf(timeframe: int, computeDelay: int, display: bool, metrics: Dict<seq<string>>)

  /** A stored website entry `{url, config: {checkDelay, metrics, aggregators, alerts}}`. */
  datatype Site = Site(url: string, checkDelay: int, metrics: Dict<bool>, aggregators: Dict<AggregatorConf>, alerts: Dict<Thresholds>)

  /** The `config` object of the argument of `setWebsite`; a missing collection is an empty one. */
  datatype SiteInput = SiteInput(checkDelay: int, metrics: Dict<bool>, aggregators: Dict<AggregatorConf>, alerts: Dict<Thresholds>)

  datatype Config = Config(websites: Dict<Site>, callbacks: map<Channel, seq<Listener>>)

  /** The argument each `_triggerCallbacks` call passes to the listeners. */
  datatype Event =
    | WebsiteSet(url: string, site: Site)
    | WebsiteDel(url: string, site: Site)
    | MetricSet(url: string, metricName: string, enabled: bool)
    | AggregatorSet(url: string, aggregatorName: string, settings: AggregatorConf)
    | AggregatorDel(url: string, aggregatorName: string, storedAggregator: Option<AggregatorConf>)
    | AlertSet(url: string, alertName: string, thresholds: Thresholds)
    | AlertDel(url: string, alertName: string, storedAlert: Option<Thresholds>)

  datatype Emitted = Emitted(config: Config, events: seq<Event>)

  datatype Call = Call(listener: Listener, event: Event)

  function ChannelOf(e: Event): Channel
  {
    match e
    case WebsiteSet(_, _) => Channel(WebsiteEl, SetOp)
    case WebsiteDel(_, _) => Channel(WebsiteEl, DelOp)
    case MetricSet(_, _, _) => Channel(MetricEl, SetOp)
    case AggregatorSet(_, _, _) => Channel(AggregatorEl, SetOp)
    case AggregatorDel(_, _, _) => Channel(AggregatorEl, DelOp)
    case AlertSet(_, _, _) => Channel(AlertEl, SetOp)
    case AlertDel(_, _, _) => Channel(AlertEl, DelOp)
  }

  /** The listener table has a list for each of the eight channels. */
  ghost predicate Complete(cb: map<Channel, seq<Listener>>)
  {
    forall ch: Channel :: ch in cb
  }

  /** The constructor: no websites, eight empty listener lists. */
  function Init(): (c: Config)
    ensures c.websites == []
    ensures Complete(c.callbacks) && forall ch :: ch in c.callbacks ==> c.callbacks[ch] == []
  {
    var cb := map[
      Channel(WebsiteEl, SetOp) := [], Channel(WebsiteEl, DelOp) := [],
      Channel(MetricEl, SetOp) := [], Channel(MetricEl, DelOp) := [],
      Channel(AggregatorEl, SetOp) := [], Channel(AggregatorEl, DelOp) := [],
      Channel(AlertEl, SetOp) := [], Channel(AlertEl, DelOp) := []];
    assert forall ch: Channel :: ch in cb by {
      forall ch: Channel ensures ch in cb {
        ChannelCases(ch);
      }
    }
    Config([], cb)
  }

  lemma ChannelCases(ch: Channel)
    ensures ch in {
      Channel(WebsiteEl, SetOp), Channel(WebsiteEl, DelOp), Channel(MetricEl, SetOp), Channel(MetricEl, DelOp),
      Channel(AggregatorEl, SetOp), Channel(AggregatorEl, DelOp), Channel(AlertEl, SetOp), Channel(AlertEl, DelOp)}
  {
    assert ch.op == SetOp || ch.op == DelOp;
    match ch.element
    case WebsiteEl =>
    case MetricEl =>
    case AggregatorEl =>
    case AlertEl =>
  }

  function ParseElement(s: string): Option<Element>
  {
    if s == "website" then Some(WebsiteEl)
    else if s == "metric" then Some(MetricEl)
    else if s == "aggregator" then Some(AggregatorEl)
    else if s == "alert" then Some(AlertEl)
    else None
  }

  function ParseOp(s: string): Option<Op>
  {
    if s == "set" then Some(SetOp) else if s == "del" then Some(DelOp) else None
  }

  /**
   `on(element, operation, callback)`: exactly the eight pairs with element
   in {website, metric, aggregator, alert} and operation in {set, del} are
   accepted, and the callback goes to the end of that pair's list; anything
   else throws, the element being checked first.
   */
  function On(c: Config, element: string, operation: string, l: Listener): (r: Result<Config, OnError>)
    requires Complete(c.callbacks)
    ensures r.Success? <==>
      element in {"website", "metric", "aggregator", "alert"} && operation in {"set", "del"}
    ensures r.Failure? ==> (r.error == BadElement <==> element !in {"website", "metric", "aggregator", "alert"})
    ensures r.Success? ==>
      var ch := Channel(ParseElement(element).value, ParseOp(operation).value);
      && r.value.websites == c.websites
      && Complete(r.value.callbacks)
      && r.value.callbacks[ch] == c.callbacks[ch] + [l]
      && forall ch' :: ch' != ch ==> r.value.callbacks[ch'] == c.callbacks[ch']
  {
    match ParseElement(element)
    case None => Failure(BadElement)
    case Some(el) =>
      match ParseOp(operation)
      case None => Failure(BadOperation)
      case Some(op) =>
        var ch := Channel(el, op);
        Success(c.(callbacks := c.callbacks[ch := c.callbacks[ch] + [l]]))
  }

  /** `_triggerCallbacks` for one event: each listener of its channel once, in registration order. */
  function Invoke(ls: seq<Listener>, e: Event): (r: seq<Call>)
    ensures |r| == |ls|
    ensures forall i :: 0 <= i < |ls| ==> r[i] == Call(ls[i], e)
  {
    if ls == [] then [] else [Call(ls[0], e)] + Invoke(ls[1..], e)
  }

  /** The listener invocations a sequence of events causes, in order. */
  function Calls(c: Config, events: seq<Event>): seq<Call>
    requires Complete(c.callbacks)
  {
    if events == [] then []
    else Invoke(c.callbacks[ChannelOf(events[0])], events[0]) + Calls(c, events[1..])
  }

  /**
   A listener registered with `on` is invoked once for the next event of
   its channel, after every listener registered before it.
   */
  lemma OnThenFire(c: Config, element: string, operation: string, l: Listener, e: Event)
    requires Complete(c.callbacks)
    requires element in {"website", "metric", "aggregator", "alert"} && operation in {"set", "del"}
    requires ChannelOf(e) == Channel(ParseElement(element).value, ParseOp(operation).value)
    ensures var c' := On(c, element, operation, l).value;
      var calls := Calls(c', [e]);
      && |calls| == |c.callbacks[ChannelOf(e)]| + 1
      && calls[..|calls| - 1] == Calls(c, [e])
      && calls[|calls| - 1] == Call(l, e)
  {
    var c' := On(c, element, operation, l).value;
    assert Calls(c', [e]) == Invoke(c'.callbacks[ChannelOf(e)], e) + Calls(c', []);
    assert Calls(c, [e]) == Invoke(c.callbacks[ChannelOf(e)], e) + Calls(c, []);
  }

  // ---- website entries ----

  predicate HasSite(c: Config, url: string)
  {
    url in KeySet(c.websites)
  }

  function SiteOf(c: Config, url: string): Site
    requires HasSite(c, url)
  {
    Lookup(c.websites, url).value
  }

  /** The store differs from `c` at most in the entry of `url`: same listeners, same other entries in the same order. */
  ghost predicate SameElsewhere(c: Config, r: Config, url: string)
  {
    r.callbacks == c.callbacks && Remove(r.websites, url) == Remove(c.websites, url)
  }

  /** `this.websites[url] = entry`, or a mutation through `this.websites[url]`. */
  function WithSite(c: Config, url: string, s: Site): (r: Config)
    ensures HasSite(r, url) && SiteOf(r, url) == s
    ensures SameElsewhere(c, r, url)
    ensures Distinct(c.websites) ==> Distinct(r.websites)
  {
    RemoveAfterPut(c.websites, url, s);
    c.(websites := Put(c.websites, url, s))
  }

  // ---- setters and deleters ----

  /** `setMetric`: records the flag under the metric name, then fires metric-set. */
  function SetMetric(c: Config, url: string, name: string, enabled: bool): (r: Emitted)
    requires HasSite(c, url)
    ensures r.events == [MetricSet(url, name, enabled)]
    ensures HasSite(r.config, url) && SameElsewhere(c, r.config, url)
    ensures SiteOf(r.config, url) == SiteOf(c, url).(metrics := Put(SiteOf(c, url).metrics, name, enabled))
    ensures Distinct(c.websites) ==> Distinct(r.config.websites)
  {
    var site := SiteOf(c, url);
    Emitted(WithSite(c, url, site.(metrics := Put(site.metrics, name, enabled))), [MetricSet(url, name, enabled)])
  }

  /** The metric-set events of `setWebsite`, one per metric of the input, in key order. */
  function MetricSetEvents(url: string, ms: Dict<bool>): seq<Event>
  {
    seq(|ms|, i requires 0 <= i < |ms| => MetricSet(url, ms[i].key, ms[i].val))
  }

  lemma MetricSetEventsStep(url: string, ms: Dict<bool>)
    requires ms != []
    ensures MetricSetEvents(url, ms) == [MetricSet(url, ms[0].key, ms[0].val)] + MetricSetEvents(url, ms[1..])
  {
  }

  /** `_.forEach(metrics, setMetric)`. */
  function SetMetrics(c: Config, url: string, ms: Dict<bool>): (r: Emitted)
    requires HasSite(c, url)
    ensures HasSite(r.config, url) && SameElsewhere(c, r.config, url)
    ensures SiteOf(r.config, url) == SiteOf(c, url).(metrics := PutAll(SiteOf(c, url).metrics, ms))
    ensures r.events == MetricSetEvents(url, ms)
    ensures Distinct(c.websites) ==> Distinct(r.config.websites)
    decreases |ms|
  {
    if ms == [] then Emitted(c, [])
    else
      var e := SetMetric(c, url, ms[0].key, ms[0].val);
      var rest := SetMetrics(e.config, url, ms[1..]);
      MetricSetEventsStep(url, ms);
      Emitted(rest.config, e.events + rest.events)
  }

  /** `setAggregatorMetric`: a TypeError unless the aggregator is stored. */
  function SetAggregatorMetric(c: Config, url: string, aggregatorName: string, metricName: string, types: seq<string>): (r: Config)
    requires HasSite(c, url) && aggregatorName in KeySet(SiteOf(c, url).aggregators)
    ensures HasSite(r, url) && SameElsewhere(c, r, url)
    ensures var site := SiteOf(c, url);
      var a := Lookup(site.aggregators, aggregatorName).value;
      SiteOf(r, url) == site.(aggregators := Put(site.aggregators, aggregatorName, a.(metrics := Put(a.metrics, metricName, types))))
    ensures Distinct(c.websites) ==> Distinct(r.websites)
  {
    var site := SiteOf(c, url);
    var a := Lookup(site.aggregators, aggregatorName).value;
    WithSite(c, url, site.(aggregators := Put(site.aggregators, aggregatorName, a.(metrics := Put(a.metrics, metricName, types)))))
  }

  function SetAggregatorMetrics(c: Config, url: string, aggregatorName: string, ms: Dict<seq<string>>): (r: Config)
    requires HasSite(c, url) && aggregatorName in KeySet(SiteOf(c, url).aggregators)
    ensures HasSite(r, url) && SameElsewhere(c, r, url)
    ensures var site := SiteOf(c, url);
      var a := Lookup(site.aggregators, aggregatorName).value;
      SiteOf(r, url) == site.(aggregators := Put(site.aggregators, aggregatorName, a.(metrics := PutAll(a.metrics, ms))))
    ensures Distinct(c.websites) ==> Distinct(r.websites)
    decreases |ms|
  {
    if ms == [] then
      var site := SiteOf(c, url);
      var a := Lookup(site.aggregators, aggregatorName).value;
      assert Put(site.aggregators, aggregatorName, a) == site.aggregators by {
        PutExisting(site.aggregators, aggregatorName);
      }
      c
    else
      var site := SiteOf(c, url);
      var a := Lookup(site.aggregators, aggregatorName).value;
      var c1 := SetAggregatorMetric(c, url, aggregatorName, ms[0].key, ms[0].val);
      var a1 := a.(metrics := Put(a.metrics, ms[0].key, ms[0].val));
      assert Lookup(SiteOf(c1, url).aggregators, aggregatorName).value == a1;
      PutPut(site.aggregators, aggregatorName, a1, a1.(metrics := PutAll(a1.metrics, ms[1..])));
      SetAggregatorMetrics(c1, url, aggregatorName, ms[1..])
  }

  /** What `setAggregator` stores: the four settings, the metrics copied key by key. */
  function Stored(a: AggregatorConf): AggregatorConf
  {
    a.(metrics := PutAll([], a.metrics))
  }

  /**
   `setAggregator`: stores `{timeframe, computeDelay, display}` with an
   empty metrics object, copies each metric's type list into it, then fires
   one aggregator-set event carrying the settings as given.
   */
  function SetAggregator(c: Config, url: string, name: string, a: AggregatorConf): (r: Emitted)
    requires HasSite(c, url)
    ensures r.events == [AggregatorSet(url, name, a)]
    ensures HasSite(r.config, url) && SameElsewhere(c, r.config, url)
    ensures SiteOf(r.config, url) == SiteOf(c, url).(aggregators := Put(SiteOf(c, url).aggregators, name, Stored(a)))
    ensures Distinct(c.websites) ==> Distinct(r.config.websites)
  {
    var site := SiteOf(c, url);
    var base := AggregatorConf(a.timeframe, a.computeDelay, a.display, []);
    var c1 := WithSite(c, url, site.(aggregators := Put(site.aggregators, name, base)));
    var c2 := SetAggregatorMetrics(c1, url, name, a.metrics);
    PutPut(site.aggregators, name, base, Stored(a));
    Emitted(c2, [AggregatorSet(url, name, a)])
  }

  /** The stored settings of an aggregator are exactly the ones given when its metrics object has no repeated key. */
  lemma SetAggregatorStoresSettings(c: Config, url: string, name: string, a: AggregatorConf)
    requires HasSite(c, url) && Distinct(a.metrics)
    ensures var r := SetAggregator(c, url, name, a);
      && Lookup(SiteOf(r.config, url).aggregators, name) == Some(a)
      && (forall n :: n != name ==> Lookup(SiteOf(r.config, url).aggregators, n) == Lookup(SiteOf(c, url).aggregators, n))
      && SiteOf(r.config, url).metrics == SiteOf(c, url).metrics
      && SiteOf(r.config, url).alerts == SiteOf(c, url).alerts
      && SiteOf(r.config, url).checkDelay == SiteOf(c, url).checkDelay
      && r.events == [AggregatorSet(url, name, a)]
  {
    CopyIsIdentity(a.metrics);
  }

  function AggregatorSetEvents(url: string, aggs: Dict<AggregatorConf>): seq<Event>
  {
    seq(|aggs|, i requires 0 <= i < |aggs| => AggregatorSet(url, aggs[i].key, aggs[i].val))
  }

  lemma AggregatorSetEventsStep(url: string, aggs: Dict<AggregatorConf>)
    requires aggs != []
    ensures AggregatorSetEvents(url, aggs) == [AggregatorSet(url, aggs[0].key, aggs[0].val)] + AggregatorSetEvents(url, aggs[1..])
    ensures StoredAll(aggs) == [Entry(aggs[0].key, Stored(aggs[0].val))] + StoredAll(aggs[1..])
  {
  }

  /** Every aggregator of `aggs` as `setAggregator` stores it. */
  function StoredAll(aggs: Dict<AggregatorConf>): (r: Dict<AggregatorConf>)
    ensures |r| == |aggs|
    ensures forall i :: 0 <= i < |aggs| ==> r[i] == Entry(aggs[i].key, Stored(aggs[i].val))
  {
    seq(|aggs|, i requires 0 <= i < |aggs| => Entry(aggs[i].key, Stored(aggs[i].val)))
  }

  function SetAggregators(c: Config, url: string, aggs: Dict<AggregatorConf>): (r: Emitted)
    requires HasSite(c, url)
    ensures HasSite(r.config, url) && SameElsewhere(c, r.config, url)
    ensures SiteOf(r.config, url) == SiteOf(c, url).(aggregators := PutAll(SiteOf(c, url).aggregators, StoredAll(aggs)))
    ensures r.events == AggregatorSetEvents(url, aggs)
    ensures Distinct(c.websites) ==> Distinct(r.config.websites)
    decreases |aggs|
  {
    if aggs == [] then Emitted(c, [])
    else
      var e := SetAggregator(c, url, aggs[0].key, aggs[0].val);
      var rest := SetAggregators(e.config, url, aggs[1..]);
      AggregatorSetEventsStep(url, aggs);
      Emitted(rest.config, e.events + rest.events)
  }

  /** `setAlert`: stores the settings under the alert name, then fires alert-set. */
  function SetAlert(c: Config, url: string, name: string, t: Thresholds): (r: Emitted)
    requires HasSite(c, url)
    ensures r.events == [AlertSet(url, name, t)]
    ensures HasSite(r.config, url) && SameElsewhere(c, r.config, url)
    ensures SiteOf(r.config, url) == SiteOf(c, url).(alerts := Put(SiteOf(c, url).alerts, name, t))
    ensures Distinct(c.websites) ==> Distinct(r.config.websites)
  {
    var site := SiteOf(c, url);
    Emitted(WithSite(c, url, site.(alerts := Put(site.alerts, name, t))), [AlertSet(url, name, t)])
  }

  function AlertSetEvents(url: string, alerts: Dict<Thresholds>): seq<Event>
  {
    seq(|alerts|, i requires 0 <= i < |alerts| => AlertSet(url, alerts[i].key, alerts[i].val))
  }

  lemma AlertSetEventsStep(url: string, alerts: Dict<Thresholds>)
    requires alerts != []
    ensures AlertSetEvents(url, alerts) == [AlertSet(url, alerts[0].key, alerts[0].val)] + AlertSetEvents(url, alerts[1..])
  {
  }

  function SetAlerts(c: Config, url: string, alerts: Dict<Thresholds>): (r: Emitted)
    requires HasSite(c, url)
    ensures HasSite(r.config, url) && SameElsewhere(c, r.config, url)
    ensures SiteOf(r.config, url) == SiteOf(c, url).(alerts := PutAll(SiteOf(c, url).alerts, alerts))
    ensures r.events == AlertSetEvents(url, alerts)
    ensures Distinct(c.websites) ==> Distinct(r.config.websites)
    decreases |alerts|
  {
    if alerts == [] then Emitted(c, [])
    else
      var e := SetAlert(c, url, alerts[0].key, alerts[0].val);
      var rest := SetAlerts(e.config, url, alerts[1..]);
      AlertSetEventsStep(url, alerts);
      Emitted(rest.config, e.events + rest.events)
  }

  /** Each collection of the input is a genuine object: no key twice, at either level. */
  ghost predicate IsObject(w: SiteInput)
  {
    && Distinct(w.metrics) && Distinct(w.aggregators) && Distinct(w.alerts)
    && forall i :: 0 <= i < |w.aggregators| ==> Distinct(w.aggregators[i].val.metrics)
  }

  /**
   `setWebsite`: replaces the entry with `{url, config: {checkDelay}}` and
   empty collections, fires website-set, then replays the metrics, the
   aggregators and the alerts of the input through their setters.
   */
  function SetWebsite(c: Config, url: string, w: SiteInput): (r: Emitted)
    ensures HasSite(r.config, url) && SameElsewhere(c, r.config, url)
    ensures SiteOf(r.config, url).url == url && SiteOf(r.config, url).checkDelay == w.checkDelay
    ensures IsObject(w) ==> SiteOf(r.config, url) == Site(url, w.checkDelay, w.metrics, w.aggregators, w.alerts)
    ensures r.events ==
      [WebsiteSet(url, Site(url, w.checkDelay, [], [], []))]
      + MetricSetEvents(url, w.metrics) + AggregatorSetEvents(url, w.aggregators) + AlertSetEvents(url, w.alerts)
    ensures Distinct(c.websites) ==> Distinct(r.config.websites)
  {
    var entry := Site(url, w.checkDelay, [], [], []);
    var c1 := WithSite(c, url, entry);
    var m := SetMetrics(c1, url, w.metrics);
    var a := SetAggregators(m.config, url, w.aggregators);
    var l := SetAlerts(a.config, url, w.alerts);
    assert IsObject(w) ==> SiteOf(l.config, url) == Site(url, w.checkDelay, w.metrics, w.aggregators, w.alerts) by {
      if IsObject(w) {
        CopyIsIdentity(w.metrics);
        CopyIsIdentity(w.alerts);
        StoredAllIdentity(w.aggregators);
        CopyIsIdentity(w.aggregators);
      }
    }
    Emitted(l.config, [WebsiteSet(url, entry)] + m.events + a.events + l.events)
  }

  predicate IsSetEvent(e: Event)
  {
    e.WebsiteSet? || e.MetricSet? || e.AggregatorSet? || e.AlertSet?
  }

  lemma SetEventsJoin(head: seq<Event>, ms: seq<Event>, ag: seq<Event>, al: seq<Event>)
    requires forall i :: 0 <= i < |head| ==> IsSetEvent(head[i])
    requires forall i :: 0 <= i < |ms| ==> IsSetEvent(ms[i])
    requires forall i :: 0 <= i < |ag| ==> IsSetEvent(ag[i])
    requires forall i :: 0 <= i < |al| ==> IsSetEvent(al[i])
    ensures var events := head + ms + ag + al;
      forall i :: 0 <= i < |events| ==> IsSetEvent(events[i])
  {
    var events := head + ms + ag + al;
    forall i | 0 <= i < |events| ensures IsSetEvent(events[i]) {
      if i < |head| {
        assert events[i] == head[i];
      } else if i < |head| + |ms| {
        assert events[i] == ms[i - |head|];
      } else if i < |head| + |ms| + |ag| {
        assert events[i] == ag[i - |head| - |ms|];
      } else {
        assert events[i] == al[i - |head| - |ms| - |ag|];
      }
    }
  }

  /** `setWebsite` fires only set events, even when it replaces an existing entry. */
  lemma SetWebsiteFiresNoDeletion(c: Config, url: string, w: SiteInput)
    ensures var events := SetWebsite(c, url, w).events;
      forall i :: 0 <= i < |events| ==> IsSetEvent(events[i])
  {
    var ms := MetricSetEvents(url, w.metrics);
    var ag := AggregatorSetEvents(url, w.aggregators);
    var al := AlertSetEvents(url, w.alerts);
    var head := [WebsiteSet(url, Site(url, w.checkDelay, [], [], []))];
    assert forall i :: 0 <= i < |ms| ==> ms[i].MetricSet?;
    assert forall i :: 0 <= i < |ag| ==> ag[i].AggregatorSet?;
    assert forall i :: 0 <= i < |al| ==> al[i].AlertSet?;
    SetEventsJoin(head, ms, ag, al);
  }

  lemma StoredAllIdentity(aggs: Dict<AggregatorConf>)
    requires forall i :: 0 <= i < |aggs| ==> Distinct(aggs[i].val.metrics)
    ensures StoredAll(aggs) == aggs
  {
    forall i | 0 <= i < |aggs| ensures StoredAll(aggs)[i] == aggs[i] {
      CopyIsIdentity(aggs[i].val.metrics);
    }
  }

  function AggregatorDelEvents(url: string, aggs: Dict<AggregatorConf>): (r: seq<Event>)
    ensures |r| == |aggs|
    ensures forall i :: 0 <= i < |aggs| ==> r[i] == AggregatorDel(url, aggs[i].key, Some(aggs[i].val))
  {
    seq(|aggs|, i requires 0 <= i < |aggs| => AggregatorDel(url, aggs[i].key, Some(aggs[i].val)))
  }

  function AlertDelEvents(url: string, alerts: Dict<Thresholds>): (r: seq<Event>)
    ensures |r| == |alerts|
    ensures forall j :: 0 <= j < |alerts| ==> r[j] == AlertDel(url, alerts[j].key, Some(alerts[j].val))
  {
    seq(|alerts|, j requires 0 <= j < |alerts| => AlertDel(url, alerts[j].key, Some(alerts[j].val)))
  }

  /**
   `delWebsite`: fires aggregator-del for each stored aggregator, then
   alert-del for each stored alert, each carrying the stored value, then
   website-del with the entry, and finally deletes the entry. A url without
   an entry is a TypeError on the first line: no event is fired and nothing
   is deleted (`None`).
   */
  function DelWebsite(c: Config, url: string): (r: Option<Emitted>)
    ensures r.None? <==> !HasSite(c, url)
    ensures r.Some? ==> !HasSite(r.value.config, url)
    ensures r.Some? ==> r.value.config.websites == Remove(c.websites, url) && r.value.config.callbacks == c.callbacks
    ensures r.Some? ==> var site := SiteOf(c, url);
      var na := |site.aggregators|;
      var nl := |site.alerts|;
      && |r.value.events| == na + nl + 1
      && (forall i :: 0 <= i < na ==>
            r.value.events[i] == AggregatorDel(url, site.aggregators[i].key, Some(site.aggregators[i].val)))
      && (forall j :: 0 <= j < nl ==>
            r.value.events[na + j] == AlertDel(url, site.alerts[j].key, Some(site.alerts[j].val)))
      && r.value.events[na + nl] == WebsiteDel(url, site)
  {
    if !HasSite(c, url) then None
    else
      var site := SiteOf(c, url);
      var aggDels := AggregatorDelEvents(url, site.aggregators);
      var alertDels := AlertDelEvents(url, site.alerts);
      var events := aggDels + alertDels + [WebsiteDel(url, site)];
      assert forall i :: 0 <= i < |aggDels| ==> events[i] == aggDels[i];
      assert forall j :: 0 <= j < |alertDels| ==> events[|aggDels| + j] == alertDels[j];
      Some(Emitted(c.(websites := Remove(c.websites, url)), events))
  }

  /** `delAlert`: deletes only that alert (a missing one is a no-op), then fires one alert-del. */
  function DelAlert(c: Config, url: string, name: string): (r: Emitted)
    requires HasSite(c, url)
    ensures r.events == [AlertDel(url, name, None)]
    ensures HasSite(r.config, url) && SameElsewhere(c, r.config, url)
    ensures Lookup(SiteOf(r.config, url).alerts, name) == None
    ensures forall n :: n != name ==> Lookup(SiteOf(r.config, url).alerts, n) == Lookup(SiteOf(c, url).alerts, n)
    ensures SiteOf(r.config, url).(alerts := SiteOf(c, url).alerts) == SiteOf(c, url)
    ensures Distinct(SiteOf(c, url).alerts) && name in KeySet(SiteOf(c, url).alerts) ==>
      var d := SiteOf(c, url).alerts;
      exists i :: 0 <= i < |d| && d[i].key == name && SiteOf(r.config, url).alerts == d[..i] + d[i+1..]
  {
    var site := SiteOf(c, url);
    Emitted(WithSite(c, url, site.(alerts := Remove(site.alerts, name))), [AlertDel(url, name, None)])
  }

  /** `delAggregator`: deletes only that aggregator, then fires one aggregator-del. */
  function DelAggregator(c: Config, url: string, name: string): (r: Emitted)
    requires HasSite(c, url)
    ensures r.events == [AggregatorDel(url, name, None)]
    ensures HasSite(r.config, url) && SameElsewhere(c, r.config, url)
    ensures Lookup(SiteOf(r.config, url).aggregators, name) == None
    ensures forall n :: n != name ==> Lookup(SiteOf(r.config, url).aggregators, n) == Lookup(SiteOf(c, url).aggregators, n)
    ensures SiteOf(r.config, url).(aggregators := SiteOf(c, url).aggregators) == SiteOf(c, url)
    ensures Distinct(SiteOf(c, url).aggregators) && name in KeySet(SiteOf(c, url).aggregators) ==>
      var d := SiteOf(c, url).aggregators;
      exists i :: 0 <= i < |d| && d[i].key == name && SiteOf(r.config, url).aggregators == d[..i] + d[i+1..]
  {
    var site := SiteOf(c, url);
    Emitted(WithSite(c, url, site.(aggregators := Remove(site.aggregators, name))), [AggregatorDel(url, name, None)])
  }

  /**
   Setting an alert the website did not have and deleting it again gives
   the website back its entry, alerts in their order included, and leaves
   every other website as it was.
   */
  lemma SetThenDelAlert(c: Config, url: string, name: string, t: Thresholds)
    requires HasSite(c, url) && name !in KeySet(SiteOf(c, url).alerts)
    ensures var s := SetAlert(c, url, name, t).config;
      var d := DelAlert(s, url, name);
      && d.events == [AlertDel(url, name, None)]
      && SiteOf(d.config, url) == SiteOf(c, url)
      && SameElsewhere(c, d.config, url)
  {
    PutThenRemove(SiteOf(c, url).alerts, name, t);
  }

  /**
   Setting an aggregator the website did not have and deleting it again
   gives the website back its entry, aggregators in their order included,
   and leaves every other website as it was.
   */
  lemma SetThenDelAggregator(c: Config, url: string, name: string, a: AggregatorConf)
    requires HasSite(c, url) && name !in KeySet(SiteOf(c, url).aggregators)
    ensures var s := SetAggregator(c, url, name, a).config;
      var d := DelAggregator(s, url, name);
      && d.events == [AggregatorDel(url, name, None)]
      && SiteOf(d.config, url) == SiteOf(c, url)
      && SameElsewhere(c, d.config, url)
  {
    PutThenRemove(SiteOf(c, url).aggregators, name, Stored(a));
  }

  /**
   Setting a website that was absent and deleting it again gives back the
   store as it was, and the deletion announces every aggregator and alert
   of the input.
   */
  lemma SetThenDelWebsite(c: Config, url: string, w: SiteInput)
    requires !HasSite(c, url) && IsObject(w)
    ensures DelWebsite(SetWebsite(c, url, w).config, url).Some?
    ensures DelWebsite(SetWebsite(c, url, w).config, url).value.config == c
    ensures DelWebsite(SetWebsite(c, url, w).config, url).value.events ==
      AggregatorDelEvents(url, w.aggregators) + AlertDelEvents(url, w.alerts)
      + [WebsiteDel(url, Site(url, w.checkDelay, w.metrics, w.aggregators, w.alerts))]
  {
    var s := SetWebsite(c, url, w);
    var site := SiteOf(s.config, url);
    assert site == Site(url, w.checkDelay, w.metrics, w.aggregators, w.alerts);
    var d := DelWebsite(s.config, url).value;
    assert d.config.websites == c.websites by {
      assert d.config.websites == Remove(s.config.websites, url);
      assert Remove(s.config.websites, url) == Remove(c.websites, url);
    }
  }
}

=== FILE: dict.dfy ===
/**
 The plain JavaScript objects the services key their state by (website
 configurations, alert settings, subscriber tables) are iterated with
 lodash's `forEach` in insertion order, and that order decides the order
 of emitted events and of threshold evaluation. This module models such an
 object as an ordered association list with the semantics of property
 assignment (`o[k] = v` keeps an existing key in place, appends a new one)
 and of `delete o[k]`.
 */
module Dict {

  datatype Option<+T> = None | Some(value: T)

  datatype Result<+T, +E> = Success(value: T) | Failure(error: E)

  datatype Entry<+V> = Entry(key: string, val: V)

  /** An object's own enumerable properties, in enumeration order. */
  type Dict<V> = seq<Entry<V>>

  function KeySet<V>(d: Dict<V>): set<string>
  {
    if d == [] then {} else {d[0].key} + KeySet(d[1..])
  }

  /** A JavaScript object never holds the same property twice. */
  ghost predicate Distinct<V>(d: Dict<V>)
  {
    d == [] || (d[0].key !in KeySet(d[1..]) && Distinct(d[1..]))
  }

  lemma {:induction false} KeySetAppend<V>(a: Dict<V>, b: Dict<V>)
    ensures KeySet(a + b) == KeySet(a) + KeySet(b)
    decreases |a|
  {
    if a != [] {
      assert (a + b)[1..] == a[1..] + b;
      KeySetAppend(a[1..], b);
    } else {
      assert a + b == b;
    }
  }

  lemma {:induction false} DistinctAppend<V>(a: Dict<V>, b: Dict<V>)
    ensures Distinct(a + b) <==> Distinct(a) && Distinct(b) && KeySet(a) !! KeySet(b)
    decreases |a|
  {
    if a != [] {
      assert (a + b)[1..] == a[1..] + b;
      assert (a + b)[0] == a[0];
      DistinctAppend(a[1..], b);
      KeySetAppend(a[1..], b);
    } else {
      assert a + b == b;
    }
  }

  /** Property read `o[k]`; `None` stands for `undefined`. */
  function Lookup<V>(d: Dict<V>, k: string): (r: Option<V>)
    ensures r.Some? <==> k in KeySet(d)
    ensures r.Some? ==> Entry(k, r.value) in d
  {
    if d == [] then None
    else if d[0].key == k then Some(d[0].val)
    else Lookup(d[1..], k)
  }

  /** Property assignment `o[k] = v`. */
  function Put<V>(d: Dict<V>, k: string, v: V): (r: Dict<V>)
    ensures Lookup(r, k) == Some(v)
    ensures forall k' :: k' != k ==> Lookup(r, k') == Lookup(d, k')
    ensures KeySet(r) == KeySet(d) + {k}
    ensures k in KeySet(d) ==> |r| == |d|
    ensures k in KeySet(d) ==> forall i :: 0 <= i < |d| ==> r[i].key == d[i].key && (d[i].key != k ==> r[i] == d[i])
    ensures k !in KeySet(d) ==> r == d + [Entry(k, v)]
    ensures Distinct(d) ==> Distinct(r)
  {
    if d == [] then [Entry(k, v)]
    else if d[0].key == k then
      var r := [Entry(k, v)] + d[1..];
      assert r[1..] == d[1..];
      r
    else
      var t := Put(d[1..], k, v);
      var r := [d[0]] + t;
      assert r[1..] == t;
      assert k !in KeySet(d) ==> d + [Entry(k, v)] == [d[0]] + (d[1..] + [Entry(k, v)]);
      r
  }

  /** `delete o[k]`: removes the property, keeps the order of the others. */
  function Remove<V>(d: Dict<V>, k: string): (r: Dict<V>)
    ensures Lookup(r, k) == None
    ensures forall k' :: k' != k ==> Lookup(r, k') == Lookup(d, k')
    ensures KeySet(r) == KeySet(d) - {k}
    ensures k !in KeySet(d) ==> r == d
    ensures Distinct(d) && k in KeySet(d) ==> exists i :: 0 <= i < |d| && d[i].key == k && r == d[..i] + d[i+1..]
    ensures Distinct(d) ==> Distinct(r)
  {
    if d == [] then []
    else
      var t := Remove(d[1..], k);
      if d[0].key == k then
        assert Distinct(d) ==> d[..0] + d[1..] == t;
        t
      else
        var r := [d[0]] + t;
        assert r[1..] == t;
        assert k !in KeySet(d) ==> r == d by {
          if k !in KeySet(d) { assert d == [d[0]] + d[1..]; }
        }
        assert Distinct(d) && k in KeySet(d) ==> exists i :: 0 <= i < |d| && d[i].key == k && r == d[..i] + d[i+1..] by {
          if Distinct(d) && k in KeySet(d) { RemoveStep(d, k, t); }
        }
        r
  }

  /** Removing a key behind the head keeps the head in front of the rest. */
  lemma RemoveStep<V>(d: Dict<V>, k: string, t: Dict<V>)
    requires d != [] && d[0].key != k
    requires exists j :: 0 <= j < |d[1..]| && d[1..][j].key == k && t == d[1..][..j] + d[1..][j+1..]
    ensures exists i :: 0 <= i < |d| && d[i].key == k && [d[0]] + t == d[..i] + d[i+1..]
  {
    var j :| 0 <= j < |d[1..]| && d[1..][j].key == k && t == d[1..][..j] + d[1..][j+1..];
    assert d[..j+1] + d[j+2..] == [d[0]] + (d[1..][..j] + d[1..][j+1..]);
    assert d[j+1].key == k;
  }

  /** Assigning every property of `d`, in order, onto `acc`. */
  function PutAll<V>(acc: Dict<V>, d: Dict<V>): Dict<V>
    decreases |d|
  {
    if d == [] then acc else PutAll(Put(acc, d[0].key, d[0].val), d[1..])
  }

  /**
   Copying an object property by property onto an object that has none of
   its keys yields the concatenation: order and values are those of the
   source, and the copy starting from `{}` is the object itself.
   */
  lemma {:induction false} PutAllFresh<V>(acc: Dict<V>, d: Dict<V>)
    requires Distinct(acc + d)
    ensures PutAll(acc, d) == acc + d
    decreases |d|
  {
    if d != [] {
      var e := d[0];
      assert d == [e] + d[1..];
      assert acc + d == (acc + [e]) + d[1..];
      DistinctAppend(acc, d);
      DistinctAppend(acc + [e], d[1..]);
      DistinctAppend(acc, [e]);
      KeySetAppend(acc, [e]);
      assert e.key !in KeySet(acc);
      assert Put(acc, e.key, e.val) == acc + [e];
      PutAllFresh(acc + [e], d[1..]);
    }
  }

  /** Copying from `{}` preserves an object exactly. */
  lemma CopyIsIdentity<V>(d: Dict<V>)
    requires Distinct(d)
    ensures PutAll([], d) == d
  {
    assert [] + d == d;
    PutAllFresh([], d);
  }

  /** `o[k] = v` followed by `delete o[k]` restores an object that lacked `k`. */
  lemma {:induction false} PutThenRemove<V>(d: Dict<V>, k: string, v: V)
    requires k !in KeySet(d)
    ensures Remove(Put(d, k, v), k) == d
    decreases |d|
  {
    if d != [] {
      PutThenRemove(d[1..], k, v);
      assert Put(d, k, v)[1..] == Put(d[1..], k, v);
      assert d == [d[0]] + d[1..];
    }
  }

  /** Assigning over a key and then deleting it is deleting it. */
  lemma {:induction false} RemoveAfterPut<V>(d: Dict<V>, k: string, v: V)
    ensures Remove(Put(d, k, v), k) == Remove(d, k)
    decreases |d|
  {
    if d != [] && d[0].key != k {
      RemoveAfterPut(d[1..], k, v);
      assert Put(d, k, v)[1..] == Put(d[1..], k, v);
    } else if d != [] {
      assert Put(d, k, v)[1..] == d[1..];
    }
  }

  /** Assigning the same key twice keeps only the second value. */
  lemma {:induction false} PutPut<V>(d: Dict<V>, k: string, a: V, b: V)
    ensures Put(Put(d, k, a), k, b) == Put(d, k, b)
    decreases |d|
  {
    if d != [] && d[0].key != k {
      PutPut(d[1..], k, a, b);
      assert Put(d, k, a)[1..] == Put(d[1..], k, a);
      assert Put(Put(d, k, a), k, b)[1..] == Put(Put(d[1..], k, a), k, b);
    } else if d != [] {
      assert Put(d, k, a)[1..] == d[1..];
    }
  }

  /** Assigning a key its current value changes nothing. */
  lemma {:induction false} PutExisting<V>(d: Dict<V>, k: string)
    requires k in KeySet(d)
    ensures Put(d, k, Lookup(d, k).value) == d
    decreases |d|
  {
    if d[0].key != k {
      PutExisting(d[1..], k);
    }
    assert d == [d[0]] + d[1..];
  }
}

=== FILE: metric.dfy ===
/**
 The time series every service reads or writes. Its implementation file is
 not part of this model; only the surface the services use is: a name, the
 samples in arrival order, and a table of `push` subscribers keyed by a
 string. Windowed aggregation is an uninterpreted parameter.
 */
module Metric {
  import opened Dict

  /**
   A sample value as the services see it: a number, `undefined` (what an
   aggregation over an empty window yields), or an object (a keyed
   aggregation such as COUNT).
   */
  datatype Value = Num(n: real) | Undefined | Keyed(fields: map<string, Value>)

  datatype Sample = Sample(timestamp: int, value: Value)

  /** An alert's settings object, e.g. `{min: 0.5}`, in key order. */
  type Thresholds = Dict<real>

  /** The only kind of `push` subscriber the services register: an alert watch. */
  datatype Subscriber = AlertWatch(url: string, alertName: string, settings: Thresholds)

  datatype Metric = Metric(name: string, samples: seq<Sample>, subscribers: Dict<Subscriber>)

  /**
   `metric.aggregate(type, timeframe, now)` over the metric's samples. Its
   arithmetic lives outside this model, so every operation that needs it
   takes it as an argument.
   */
  type Aggregation = (seq<Sample>, string, int, int) -> Value

  /** `new Metric(name)`: no samples, no subscribers. */
  function Fresh(name: string): (m: Metric)
    ensures m.name == name && m.samples == [] && m.subscribers == []
  {
    Metric(name, [], [])
  }

  /**
   The storage half of `push`: the sample goes to the tail whatever its
   timestamp, earlier samples keep their places.
   */
  function Append(m: Metric, s: Sample): (r: Metric)
    ensures |r.samples| == |m.samples| + 1
    ensures r.samples[..|m.samples|] == m.samples && r.samples[|m.samples|] == s
    ensures r.name == m.name && r.subscribers == m.subscribers
  {
    m.(samples := m.samples + [s])
  }

  /** `on('push', key, callback)`: a key already present keeps its slot and gets the new callback. */
  function Subscribe(m: Metric, key: string, sub: Subscriber): (r: Metric)
    ensures Lookup(r.subscribers, key) == Some(sub)
    ensures forall k :: k != key ==> Lookup(r.subscribers, k) == Lookup(m.subscribers, k)
    ensures r.name == m.name && r.samples == m.samples
  {
    m.(subscribers := Put(m.subscribers, key, sub))
  }

  /** `deleteCallback('push', key)`: a missing key is a no-op. */
  function Unsubscribe(m: Metric, key: string): (r: Metric)
    ensures Lookup(r.subscribers, key) == None
    ensures forall k :: k != key ==> Lookup(r.subscribers, k) == Lookup(m.subscribers, k)
    ensures key !in KeySet(m.subscribers) ==> r == m
    ensures r.name == m.name && r.samples == m.samples
  {
    m.(subscribers := Remove(m.subscribers, key))
  }
}

=== FILE: pipeline.dfy ===
/**
 A push into a stored metric, as the aggregator and the checker perform
 it: the sample is appended, then every subscriber of the metric runs, in
 subscription order, before the push returns.
 */
module Pipeline {
  import opened Dict
  import opened Metric
  import opened Store
  import opened Alert

  datatype Pushed = Pushed(store: DataStore, alerts: AlertService)

  /**
   `dataStore.get(url, name).push(sample)`. A missing metric is a TypeError
   (`None`). On success only that metric changes, by exactly the new sample
   at its tail, and the alert service has seen the sample through every
   watch of that metric.
   */
  function Push(store: DataStore, alerts: AlertService, url: string, name: string, sample: Sample): (r: Option<Pushed>)
    requires url in store.metrics
    ensures r.Some? <==> name in store.metrics[url]
    ensures r.Some? ==> r.value.store.metrics.Keys == store.metrics.Keys
    ensures r.Some? ==>
      var m := store.metrics[url][name];
      Get(r.value.store, url, name) == Some(m.(samples := m.samples + [sample]))
    ensures r.Some? ==>
      forall u, n :: u in store.metrics && (u != url || n != name) ==> Get(r.value.store, u, n) == Get(store, u, n)
    ensures r.Some? ==> r.value.alerts == Deliver(alerts, store.metrics[url][name].subscribers, sample)
  {
    match Get(store, url, name)
    case None => None
    case Some(m) => Some(Pushed(Set(store, url, name, Append(m, sample)), Deliver(alerts, m.subscribers, sample)))
  }
}

=== FILE: store.dfy ===
/**
 The shared metric store (dataStore.js): a two-level table from url to
 metric name to metric.
 */
module Store {
  import opened Dict
  import opened Metric

  datatype DataStore = DataStore(metrics: map<string, map<string, Metric>>)

  /** `new DataStore()`: no url has a bucket yet. */
  function Empty(): (r: DataStore)
    ensures forall u :: u !in r.metrics
  {
    DataStore(map[])
  }

  /**
   `get(url, name)`. Reading through a url that has no bucket is a
   TypeError in the source, hence the precondition; an unknown name under a
   known url is `undefined`, which callers test for.
   */
  function Get(s: DataStore, url: string, name: string): (r: Option<Metric>)
    requires url in s.metrics
    ensures r.None? <==> name !in s.metrics[url]
    ensures r.Some? ==> r.value == s.metrics[url][name]
  {
    if name in s.metrics[url] then Some(s.metrics[url][name]) else None
  }

  /**
   `set(url, name, metric)`: creates the url's bucket when missing, keeps
   the other names of the bucket, overwrites the same name.
   */
  function Set(s: DataStore, url: string, name: string, m: Metric): (r: DataStore)
    ensures r.metrics.Keys == s.metrics.Keys + {url}
    ensures Get(r, url, name) == Some(m)
    ensures forall u, n :: u in s.metrics && (u != url || n != name) ==> Get(r, u, n) == Get(s, u, n)
    ensures url !in s.metrics ==> forall n :: n != name ==> Get(r, url, n) == None
  {
    var bucket := if url in s.metrics then s.metrics[url] else map[];
    DataStore(s.metrics[url := bucket[name := m]])
  }
}

=== FILE: timers.dfy ===
/**
 Periodic timers and the url-keyed registries of timer-driven instances
 kept by the aggregation service (aggregate.js) and the check service
 (check.js). `setInterval` hands out a fresh id, `clearInterval` cancels it
 (a cancelled or missing id is ignored); a callback runs only while its id
 is live. Both services follow one protocol: on set, stop the instance
 under the key if any, then install and start a new one; on delete, stop
 it and remove the key.
 */
module Timers {
  import opened Dict

  /** The live interval ids of the process; ids are never reused. */
  datatype Timers = Timers(live: set<nat>, next: nat)

  ghost predicate Valid(t: Timers)
  {
    forall h :: h in t.live ==> h < t.next
  }

  /** An instance with its interval handle (`undefined` before `start`). */
  datatype Task<+T> = Task(body: T, interval: Option<nat>)

  predicate Running<T>(task: Task<T>, t: Timers)
  {
    task.interval.Some? && task.interval.value in t.live
  }

  /** `start`: `setInterval` with a fresh id. */
  function Start<T>(task: Task<T>, t: Timers): (r: (Task<T>, Timers))
    requires Valid(t)
    ensures r.0.body == task.body && Running(r.0, r.1)
    ensures r.0.interval.value !in t.live && r.0.interval.value < r.1.next
    ensures r.1.live == t.live + {r.0.interval.value}
    ensures t.next <= r.1.next && Valid(r.1)
  {
    (task.(interval := Some(t.next)), Timers(t.live + {t.next}, t.next + 1))
  }

  /** `stop`: `clearInterval` of the handle; harmless before `start` and when repeated. */
  function Stop<T>(task: Task<T>, t: Timers): (r: Timers)
    ensures !Running(task, r)
    ensures r.next == t.next && r.live <= t.live
    ensures forall h :: h in t.live && Some(h) != task.interval ==> h in r.live
  {
    match task.interval
    case None => t
    case Some(h) => t.(live := t.live - {h})
  }

  /** Stopping twice is stopping once. */
  lemma StopTwice<T>(task: Task<T>, t: Timers)
    ensures Stop(task, Stop(task, t)) == Stop(task, t)
  {
  }

  /** A timer callback: it runs only while the instance's interval is live, so nothing runs after `stop`. */
  function Fire<T, S>(task: Task<T>, t: Timers, state: S, tick: S -> S): (r: S)
    ensures !Running(task, t) ==> r == state
    ensures Running(task, t) ==> r == tick(state)
  {
    if Running(task, t) then tick(state) else state
  }

  lemma NoTickAfterStop<T, S>(task: Task<T>, t: Timers, state: S, tick: S -> S)
    ensures Fire(task, Stop(task, t), state, tick) == state
  {
  }

  type Registry<T> = map<string, Task<T>>

  /** Every handle the registry holds was handed out by `t`. */
  ghost predicate Issued<T>(reg: Registry<T>, t: Timers)
  {
    forall k :: k in reg && reg[k].interval.Some? ==> reg[k].interval.value < t.next
  }

  /** The intervals held by the registered instances. */
  function Intervals<T>(reg: Registry<T>): set<nat>
  {
    set k | k in reg && reg[k].interval.Some? :: reg[k].interval.value
  }

  /**
   The registry accounts for its timers: every registered instance holds
   its own interval, and the live intervals are exactly the registry's plus
   `others` (those of other owners). So no timer outlives its instance's
   registration, and there is one running instance per key.
   */
  ghost predicate Tracks<T>(reg: Registry<T>, t: Timers, others: set<nat>)
  {
    && Valid(t)
    && Issued(reg, t)
    && (forall k :: k in reg ==> reg[k].interval.Some?)
    && (forall k1, k2 :: k1 in reg && k2 in reg && k1 != k2 ==> reg[k1].interval != reg[k2].interval)
    && t.live == Intervals(reg) + others
    && Intervals(reg) !! others
  }

  /**
   `_setAggregator` / `_setChecker`: the instance under `key`, if any, is
   stopped before the new one is installed and started.
   */
  function Install<T>(reg: Registry<T>, t: Timers, key: string, body: T): (r: (Registry<T>, Timers))
    requires Valid(t) && Issued(reg, t)
    ensures r.0.Keys == reg.Keys + {key}
    ensures r.0[key].body == body && Running(r.0[key], r.1)
    ensures key in reg ==> !Running(reg[key], r.1)
    ensures forall k :: k in reg && k != key ==> r.0[k] == reg[k]
    ensures Valid(r.1) && Issued(r.0, r.1)
    ensures t.next <= r.1.next && forall h :: h in r.1.live && h !in t.live ==> t.next <= h
  {
    var t1 := if key in reg then Stop(reg[key], t) else t;
    var (task, t2) := Start(Task(body, None), t1);
    (reg[key := task], t2)
  }

  /** `_delAggregator` / `_delChecker`: stop, then remove the key; a missing key is a TypeError. */
  function Uninstall<T>(reg: Registry<T>, t: Timers, key: string): (r: (Registry<T>, Timers))
    requires key in reg
    ensures r.0 == reg - {key}
    ensures !Running(reg[key], r.1)
    ensures r.1.next == t.next && r.1.live <= t.live
    ensures forall h :: h in t.live && Some(h) != reg[key].interval ==> h in r.1.live
  {
    (reg - {key}, Stop(reg[key], t))
  }

  lemma InstallTracks<T>(reg: Registry<T>, t: Timers, others: set<nat>, key: string, body: T)
    requires Tracks(reg, t, others)
    ensures var (reg', t') := Install(reg, t, key, body);
      Tracks(reg', t', others)
  {
    var (reg', t') := Install(reg, t, key, body);
    var t1 := if key in reg then Stop(reg[key], t) else t;
    var h := t.next;
    assert reg'[key].interval == Some(h);
    assert h !in t.live;
    var gone := if key in reg then {reg[key].interval.value} else {};
    assert Intervals(reg') == Intervals(reg) - gone + {h} by {
      forall x | x in Intervals(reg') ensures x in Intervals(reg) - gone + {h} {
        var k :| k in reg' && reg'[k].interval.Some? && reg'[k].interval.value == x;
        if k != key {
          assert reg'[k] == reg[k];
          assert x in Intervals(reg);
        }
      }
      forall x | x in Intervals(reg) - gone + {h} ensures x in Intervals(reg') {
        if x != h {
          var k :| k in reg && reg[k].interval.Some? && reg[k].interval.value == x;
          assert k != key;
          assert reg'[k] == reg[k];
        }
      }
    }
    assert t1.live == t.live - gone;
    assert t'.live == t1.live + {h};
  }

  lemma UninstallTracks<T>(reg: Registry<T>, t: Timers, others: set<nat>, key: string)
    requires Tracks(reg, t, others) && key in reg
    ensures var (reg', t') := Uninstall(reg, t, key);
      Tracks(reg', t', others)
  {
    var (reg', t') := Uninstall(reg, t, key);
    var h := reg[key].interval.value;
    assert Intervals(reg') == Intervals(reg) - {h} by {
      forall x | x in Intervals(reg') ensures x in Intervals(reg) - {h} {
        var k :| k in reg' && reg'[k].interval.Some? && reg'[k].interval.value == x;
        assert reg'[k] == reg[k];
      }
      forall x | x in Intervals(reg) - {h} ensures x in Intervals(reg') {
        var k :| k in reg && reg[k].interval.Some? && reg[k].interval.value == x;
        assert k != key;
        assert k in reg' && reg'[k] == reg[k];
      }
    }
  }

  /** Under `Tracks`, every registered instance is running and every other live timer belongs to another owner. */
  lemma TrackedAreRunning<T>(reg: Registry<T>, t: Timers, others: set<nat>)
    requires Tracks(reg, t, others)
    ensures forall k :: k in reg ==> Running(reg[k], t)
    ensures forall h :: h in t.live && h !in others ==> exists k :: k in reg && reg[k].interval == Some(h)
  {
    forall k | k in reg ensures Running(reg[k], t) {
      assert reg[k].interval.value in Intervals(reg);
    }
  }

  /**
   Installing twice under a fresh key and then uninstalling it restores the
   registry and the live timers: the first instance was stopped by the
   second install, the second by the uninstall.
   */
  lemma ReplaceThenRemove<T>(reg: Registry<T>, t: Timers, key: string, b1: T, b2: T)
    requires key !in reg && Tracks(reg, t, {})
    ensures var (reg1, t1) := Install(reg, t, key, b1);
      var (reg2, t2) := Install(reg1, t1, key, b2);
      var (reg3, t3) := Uninstall(reg2, t2, key);
      && !Running(reg1[key], t2)
      && Running(reg2[key], t2)
      && reg3 == reg
      && t3.live == t.live
  {
    var (reg1, t1) := Install(reg, t, key, b1);
    InstallTracks(reg, t, {}, key, b1);
    var (reg2, t2) := Install(reg1, t1, key, b2);
    InstallTracks(reg1, t1, {}, key, b2);
    var (reg3, t3) := Uninstall(reg2, t2, key);
    UninstallTracks(reg2, t2, {}, key);
    assert reg3 == reg;
  }
}

=== FILE: wiring.dfy ===
/**
 The process of service.js: one configuration, one store, and the three
 services bound to the configuration's events in the order check,
 aggregation, alert. Every channel has listeners from one service only, so
 an event is handled by exactly one handler.
 */
module Wiring {
  import opened Dict
  import opened Metric
  import opened Store
  import opened Pipeline
  import opened Timers
  import Config
  import Alert
  import Aggregate
  import Check

  datatype Services = Services(
    store: DataStore,
    alerts: Alert.AlertService,
    checks: Check.CheckService,
    aggregators: Aggregate.AggregationService,
    timers: Timers)

  function Start(): (w: Services)
    ensures w.timers.live == {} && w.checks == map[] && w.aggregators == map[]
  {
    Services(Empty(), Alert.Init(), map[], map[], Timers({}, 0))
  }

  /** Every live timer belongs to exactly one registered checker or aggregator, and each of those is running. */
  ghost predicate Owned(w: Services)
  {
    && Tracks(w.checks, w.timers, Intervals(w.aggregators))
    && Tracks(w.aggregators, w.timers, Intervals(w.checks))
  }

  /** At process start nothing runs, so there is nothing to own. */
  lemma StartOwned()
    ensures Owned(Start())
  {
  }

  /**
   The handlers, numbered in the order the three `run()` methods register
   them: the check service's website-set, website-del and metric-set, the
   aggregation service's aggregator-set and aggregator-del, the alert
   service's alert-set and alert-del. `Dispatch` runs the one an event's
   kind names.
   */
  function HandlerOf(e: Config.Event): Config.Listener
  {
    match e
    case WebsiteSet(_, _) => 0
    case WebsiteDel(_, _) => 1
    case MetricSet(_, _, _) => 2
    case AggregatorSet(_, _, _) => 3
    case AggregatorDel(_, _, _) => 4
    case AlertSet(_, _, _) => 5
    case AlertDel(_, _, _) => 6
  }

  /** One `on` registration of a `run()` method, carried on from an earlier one that succeeded. */
  function Register(prev: Result<Config.Config, Config.OnError>, element: string, operation: string, l: Config.Listener): (r: Result<Config.Config, Config.OnError>)
    requires prev.Success? ==> Config.Complete(prev.value.callbacks)
    ensures r.Success? ==> Config.Complete(r.value.callbacks)
  {
    match prev
    case Failure(err) => Failure(err)
    case Success(c) => Config.On(c, element, operation, l)
  }

  /** The configuration's listener table once `checkService.run()`, `aggregationService.run()` and `alertService.run()` have run. */
  function Run(): (r: Result<Config.Config, Config.OnError>)
    ensures r.Success? ==> Config.Complete(r.value.callbacks)
  {
    var c := Register(Success(Config.Init()), "website", "set", 0);
    var c := Register(c, "website", "del", 1);
    var c := Register(c, "metric", "set", 2);
    var c := Register(c, "aggregator", "set", 3);
    var c := Register(c, "aggregator", "del", 4);
    var c := Register(c, "alert", "set", 5);
    Register(c, "alert", "del", 6)
  }

  /**
   The seven registrations all succeed, no channel gets two listeners, and
   metric-del gets none; so every event the configuration fires causes
   exactly one listener call, to the handler `Dispatch` runs for it.
   */
  lemma RunBindsOneHandlerPerEvent()
    ensures Run().Success?
    ensures Run().value.websites == []
    ensures Run().value.callbacks[Config.Channel(Config.MetricEl, Config.DelOp)] == []
    ensures forall e :: Config.Calls(Run().value, [e]) == [Config.Call(HandlerOf(e), e)]
  {
    var c0 := Config.Init();
    var c1 := Config.On(c0, "website", "set", 0).value;
    var c2 := Config.On(c1, "website", "del", 1).value;
    var c3 := Config.On(c2, "metric", "set", 2).value;
    var c4 := Config.On(c3, "aggregator", "set", 3).value;
    var c5 := Config.On(c4, "aggregator", "del", 4).value;
    var c6 := Config.On(c5, "alert", "set", 5).value;
    var c7 := Config.On(c6, "alert", "del", 6).value;
    assert Run() == Success(c7);
    forall e: Config.Event ensures Config.Calls(c7, [e]) == [Config.Call(HandlerOf(e), e)] {
      assert c7.callbacks[Config.ChannelOf(e)] == [HandlerOf(e)];
      assert Config.Calls(c7, [e]) == Config.Invoke([HandlerOf(e)], e) + Config.Calls(c7, []);
    }
  }

  /** The handler bound to the event's channel. A TypeError it throws is `None`. */
  function Dispatch(w: Services, e: Config.Event): (r: Option<Services>)
    requires Valid(w.timers) && Issued(w.checks, w.timers) && Issued(w.aggregators, w.timers)
    ensures r.Some? ==> r.value.timers.next >= w.timers.next
    ensures r.Some? ==> forall h :: h in r.value.timers.live && h !in w.timers.live ==> w.timers.next <= h
    ensures r.Some? && e.AggregatorSet? ==> w.aggregators.Keys <= r.value.aggregators.Keys
    ensures r.Some? && e.AggregatorDel? ==>
      Aggregate.ServiceKey(e.url, e.aggregatorName) in w.aggregators && !Running(w.aggregators[Aggregate.ServiceKey(e.url, e.aggregatorName)], r.value.timers)
    ensures r.Some? && !e.WebsiteSet? && !e.WebsiteDel? ==> r.value.checks == w.checks
    ensures r.Some? && !e.AggregatorSet? && !e.AggregatorDel? ==> r.value.aggregators == w.aggregators
    ensures (e.WebsiteSet? || e.AggregatorSet?) ==> r.Some?
    ensures r.Some? && (e.WebsiteSet? || e.WebsiteDel? || e.AggregatorDel?) ==> r.value.store == w.store
    ensures r.Some? && (e.AlertSet? || e.AlertDel?) ==> r.value.store.metrics.Keys == w.store.metrics.Keys
    ensures r.Some? && (e.AlertSet? || e.AlertDel?) ==>
      && (forall u, n :: u in w.store.metrics && (u != e.url || n != e.alertName) ==> Get(r.value.store, u, n) == Get(w.store, u, n))
      && e.url in w.store.metrics && e.alertName in w.store.metrics[e.url]
      && e.url in r.value.store.metrics
      && Get(r.value.store, e.url, e.alertName).Some?
      && Get(r.value.store, e.url, e.alertName).value.samples == w.store.metrics[e.url][e.alertName].samples
    ensures r.Some? && (e.MetricSet? || e.AggregatorSet?) ==> w.store.metrics.Keys <= r.value.store.metrics.Keys
    ensures r.Some? && e.MetricSet? ==> e.url in w.checks && forall u, n :: u in w.store.metrics && (u != w.checks[e.url].body.url || n != e.metricName) ==>
      Get(r.value.store, u, n) == Get(w.store, u, n)
    ensures r.Some? && e.AggregatorSet? ==> var k := Aggregate.ServiceKey(e.url, e.aggregatorName);
      && k in r.value.aggregators && Running(r.value.aggregators[k], r.value.timers)
      && forall u, n :: u in w.store.metrics && (u != e.url || Aggregate.NotDerived(r.value.aggregators[k].body, Aggregate.Pairs(e.settings.metrics), n)) ==>
           Get(r.value.store, u, n) == Get(w.store, u, n)
    ensures r.Some? && e.AlertSet? ==>
      && r.value.alerts.alerts == w.alerts.alerts
      && r.value.alerts.triggered - {Alert.FlagKey(e.url, e.alertName)} == w.alerts.triggered - {Alert.FlagKey(e.url, e.alertName)}
    ensures r.Some? && !e.AlertSet? ==> r.value.alerts == w.alerts
    ensures e.WebsiteDel? ==> (r.Some? <==> e.url in w.checks)
    ensures r.Some? && e.WebsiteDel? ==> r.value.checks == w.checks - {e.url}
    ensures r.Some? && e.AggregatorDel? ==> r.value.aggregators == w.aggregators - {Aggregate.ServiceKey(e.url, e.aggregatorName)}
    ensures e.MetricSet? ==> (r.Some? <==> e.url in w.checks)
    ensures e.AggregatorDel? ==> (r.Some? <==> Aggregate.ServiceKey(e.url, e.aggregatorName) in w.aggregators)
    ensures e.AlertSet? ==> (r.Some? <==> e.url in w.store.metrics && e.alertName in w.store.metrics[e.url])
    ensures e.AlertDel? ==> (r.Some? <==> e.url in w.store.metrics && e.alertName in w.store.metrics[e.url])
  {
    match e
    case WebsiteSet(url, site) =>
      var (c, t) := Check.SetChecker(w.checks, w.timers, url, site);
      Some(w.(checks := c, timers := t))
    case WebsiteDel(url, _) =>
      if url in w.checks then
        var (c, t) := Check.DelChecker(w.checks, w.timers, url);
        Some(w.(checks := c, timers := t))
      else None
    case MetricSet(url, name, enabled) =>
      (match Check.SetMetric(w.checks, w.store, url, name, enabled)
       case None => None
       case Some(s) => Some(w.(store := s)))
    case AggregatorSet(url, name, settings) =>
      var i := Aggregate.SetAggregator(w.aggregators, w.timers, w.store, url, name, settings);
      Some(w.(aggregators := i.service, timers := i.timers, store := i.store))
    case AggregatorDel(url, name, _) =>
      if Aggregate.ServiceKey(url, name) in w.aggregators then
        var (a, t) := Aggregate.DelAggregator(w.aggregators, w.timers, url, name);
        Some(w.(aggregators := a, timers := t))
      else None
    case AlertSet(url, name, settings) =>
      if url !in w.store.metrics then None
      else
        var h := Alert.AlertSet(w.alerts, w.store, url, name, settings);
        if h.ok then Some(w.(alerts := h.service, store := h.store)) else None
    case AlertDel(url, name, _) =>
      if url !in w.store.metrics then None
      else
        (match Alert.AlertDel(w.store, url, name)
         case None => None
         case Some(s) => Some(w.(store := s)))
  }

  /** `Tracks` for one registry transfers to the other once both registries' own facts hold. */
  lemma SwapOwners<T, U>(a: Registry<T>, b: Registry<U>, t: Timers)
    requires Tracks(a, t, Intervals(b))
    requires Issued(b, t) && forall k :: k in b ==> b[k].interval.Some?
    requires forall k1, k2 :: k1 in b && k2 in b && k1 != k2 ==> b[k1].interval != b[k2].interval
    ensures Tracks(b, t, Intervals(a))
  {
  }

  /** Every handler keeps the timers accounted for. */
  lemma DispatchKeepsOwned(w: Services, e: Config.Event)
    requires Owned(w)
    ensures Dispatch(w, e).Some? ==> Owned(Dispatch(w, e).value)
  {
    match e
    case WebsiteSet(url, site) =>
      InstallTracks(w.checks, w.timers, Intervals(w.aggregators), url, Check.Checker(site.url));
      var r := Dispatch(w, e).value;
      SwapOwners(r.checks, r.aggregators, r.timers);
    case WebsiteDel(url, _) =>
      if url in w.checks {
        UninstallTracks(w.checks, w.timers, Intervals(w.aggregators), url);
        var r := Dispatch(w, e).value;
        SwapOwners(r.checks, r.aggregators, r.timers);
      }
    case AggregatorSet(url, name, settings) =>
      InstallTracks(w.aggregators, w.timers, Intervals(w.checks), Aggregate.ServiceKey(url, name),
        Aggregate.Construct(w.store, url, name, settings).0);
      var r := Dispatch(w, e).value;
      SwapOwners(r.aggregators, r.checks, r.timers);
    case AggregatorDel(url, name, _) =>
      if Aggregate.ServiceKey(url, name) in w.aggregators {
        UninstallTracks(w.aggregators, w.timers, Intervals(w.checks), Aggregate.ServiceKey(url, name));
        var r := Dispatch(w, e).value;
        SwapOwners(r.aggregators, r.checks, r.timers);
      }
    case MetricSet(_, _, _) =>
    case AlertSet(_, _, _) =>
    case AlertDel(_, _, _) =>
  }

  /** The events of one configuration call, handled in emission order; the first TypeError ends the call. */
  function DispatchAll(w: Services, events: seq<Config.Event>): (r: Option<Services>)
    requires Owned(w)
    ensures r.Some? ==> Owned(r.value)
    ensures events == [] ==> r == Some(w)
    decreases |events|
  {
    if events == [] then Some(w)
    else
      DispatchKeepsOwned(w, events[0]);
      match Dispatch(w, events[0])
      case None => None
      case Some(w1) => DispatchAll(w1, events[1..])
  }

  /**
   Under events that never set an aggregator, a key that is absent at the
   start or deleted by one of the events is absent at the end.
   */
  lemma {:induction false} AggregatorStaysDeleted(w: Services, events: seq<Config.Event>, key: string)
    requires Owned(w)
    requires forall i :: 0 <= i < |events| ==> !events[i].AggregatorSet?
    requires key !in w.aggregators ||
      exists i :: 0 <= i < |events| && events[i].AggregatorDel? && Aggregate.ServiceKey(events[i].url, events[i].aggregatorName) == key
    ensures var r := DispatchAll(w, events);
      r.Some? ==> key !in r.value.aggregators
    decreases |events|
  {
    if events != [] {
      DispatchKeepsOwned(w, events[0]);
      match Dispatch(w, events[0])
      case None =>
      case Some(w1) =>
        var tail := events[1..];
        assert forall i :: 1 <= i < |events| ==> tail[i - 1] == events[i];
        if key in w1.aggregators {
          var i :| 0 <= i < |events| && events[i].AggregatorDel? && Aggregate.ServiceKey(events[i].url, events[i].aggregatorName) == key;
          assert i != 0;
          assert tail[i - 1] == events[i];
        }
        AggregatorStaysDeleted(w1, tail, key);
    }
  }

  /** The same for checkers under events that never set a website. */
  lemma {:induction false} CheckerStaysDeleted(w: Services, events: seq<Config.Event>, url: string)
    requires Owned(w)
    requires forall i :: 0 <= i < |events| ==> !events[i].WebsiteSet?
    requires url !in w.checks || exists i :: 0 <= i < |events| && events[i].WebsiteDel? && events[i].url == url
    ensures var r := DispatchAll(w, events);
      r.Some? ==> url !in r.value.checks
    decreases |events|
  {
    if events != [] {
      DispatchKeepsOwned(w, events[0]);
      match Dispatch(w, events[0])
      case None =>
      case Some(w1) =>
        var tail := events[1..];
        assert forall i :: 1 <= i < |events| ==> tail[i - 1] == events[i];
        if url in w1.checks {
          var i :| 0 <= i < |events| && events[i].WebsiteDel? && events[i].url == url;
          assert i != 0;
          assert tail[i - 1] == events[i];
        }
        CheckerStaysDeleted(w1, tail, url);
    }
  }

  /**
   Handling the events of `delWebsite` stops and forgets the website's
   checker and every aggregator configured for it.
   */
  lemma DelWebsiteStopsItsTimers(c: Config.Config, w: Services, url: string)
    requires Config.HasSite(c, url) && Owned(w)
    ensures var site := Config.SiteOf(c, url);
      var r := DispatchAll(w, Config.DelWebsite(c, url).value.events);
      r.Some? ==>
        && url !in r.value.checks
        && forall i :: 0 <= i < |site.aggregators| ==> Aggregate.ServiceKey(url, site.aggregators[i].key) !in r.value.aggregators
  {
    var site := Config.SiteOf(c, url);
    var events := Config.DelWebsite(c, url).value.events;
    var na := |site.aggregators|;
    var nl := |site.alerts|;
    assert forall i :: 0 <= i < |events| ==> !events[i].AggregatorSet? && !events[i].WebsiteSet? by {
      forall i | 0 <= i < |events| ensures !events[i].AggregatorSet? && !events[i].WebsiteSet? {
        if i < na {
        } else if i < na + nl {
          assert events[na + (i - na)].AlertDel?;
        }
      }
    }
    assert events[na + nl].WebsiteDel? && events[na + nl].url == url;
    CheckerStaysDeleted(w, events, url);
    forall i | 0 <= i < na
      ensures var r := DispatchAll(w, events);
        r.Some? ==> Aggregate.ServiceKey(url, site.aggregators[i].key) !in r.value.aggregators
    {
      assert events[i].AggregatorDel? && events[i].url == url && events[i].aggregatorName == site.aggregators[i].key;
      AggregatorStaysDeleted(w, events, Aggregate.ServiceKey(url, site.aggregators[i].key));
    }
  }

  /**
   One interval callback of an aggregator instance, fired through its
   timer: an instance whose interval is not live does nothing; a running one
   ticks, and a TypeError inside the tick is uncaught and ends the process.
   */
  function AggregatorTick(w: Services, task: Task<Aggregate.Aggregator>, f: Aggregation, clock: seq<int>): (r: Option<Services>)
    requires |clock| == |Aggregate.Pairs(task.body.metrics)|
    ensures !Running(task, w.timers) ==> r == Some(w)
    ensures Running(task, w.timers) ==>
      var pr := Aggregate.Tick(w.store, w.alerts, task.body, f, clock);
      && (r.Some? <==> pr.ok)
      && (r.Some? ==> r.value == w.(store := pr.store, alerts := pr.alerts))
  {
    var tick := (s: Option<Services>) =>
      if s.None? then None
      else
        var pr := Aggregate.Tick(s.value.store, s.value.alerts, task.body, f, clock);
        if pr.ok then Some(s.value.(store := pr.store, alerts := pr.alerts)) else None;
    Fire(task, w.timers, Some(w), tick)
  }

  /** A timer that is not live stays so under any events: ids are never reissued. */
  lemma {:induction false} StoppedStaysStopped<T>(w: Services, events: seq<Config.Event>, task: Task<T>)
    requires Owned(w) && !Running(task, w.timers)
    requires task.interval.Some? ==> task.interval.value < w.timers.next
    ensures var r := DispatchAll(w, events);
      r.Some? ==> !Running(task, r.value.timers) && w.timers.next <= r.value.timers.next
    decreases |events|
  {
    if events != [] {
      DispatchKeepsOwned(w, events[0]);
      match Dispatch(w, events[0])
      case None =>
      case Some(w1) =>
        StoppedStaysStopped(w1, events[1..], task);
    }
  }

  /**
   After `aggregator del`, the deleted instance's interval callback never
   pushes again, whatever events are handled later.
   */
  lemma DeletedAggregatorStaysSilent(w: Services, url: string, name: string, later: seq<Config.Event>, f: Aggregation, clock: seq<int>)
    requires Owned(w) && Aggregate.ServiceKey(url, name) in w.aggregators
    requires |clock| == |Aggregate.Pairs(w.aggregators[Aggregate.ServiceKey(url, name)].body.metrics)|
    ensures var r := Dispatch(w, Config.AggregatorDel(url, name, None));
      && r.Some? && Owned(r.value)
      && var r2 := DispatchAll(r.value, later);
         r2.Some? ==> AggregatorTick(r2.value, w.aggregators[Aggregate.ServiceKey(url, name)], f, clock) == Some(r2.value)
  {
    var task := w.aggregators[Aggregate.ServiceKey(url, name)];
    DispatchKeepsOwned(w, Config.AggregatorDel(url, name, None));
    var r := Dispatch(w, Config.AggregatorDel(url, name, None)).value;
    StoppedStaysStopped(r, later, task);
  }

  /** Handling events without an aggregator-del never unregisters an aggregator. */
  lemma {:induction false} AggregatorsSurvive(w: Services, events: seq<Config.Event>)
    requires Owned(w)
    requires forall i :: 0 <= i < |events| ==> !events[i].AggregatorDel?
    ensures var r := DispatchAll(w, events);
      r.Some? ==> w.aggregators.Keys <= r.value.aggregators.Keys
    decreases |events|
  {
    if events != [] {
      DispatchKeepsOwned(w, events[0]);
      match Dispatch(w, events[0])
      case None =>
      case Some(w1) =>
        assert forall i :: 1 <= i < |events| ==> events[1..][i - 1] == events[i];
        AggregatorsSurvive(w1, events[1..]);
    }
  }

  lemma SetEventsKeepAggregators(w: Services, events: seq<Config.Event>)
    requires Owned(w) && forall i :: 0 <= i < |events| ==> Config.IsSetEvent(events[i])
    ensures var r := DispatchAll(w, events);
      r.Some? ==> w.aggregators.Keys <= r.value.aggregators.Keys
  {
    AggregatorsSurvive(w, events);
  }

  /**
   Setting a website again fires no deletion, so every aggregator already
   registered, including ones the new settings no longer mention, stays
   registered.
   */
  lemma ResetWebsiteKeepsAggregators(c: Config.Config, w: Services, url: string, input: Config.SiteInput)
    requires Owned(w)
    ensures var r := DispatchAll(w, Config.SetWebsite(c, url, input).events);
      r.Some? ==> w.aggregators.Keys <= r.value.aggregators.Keys
  {
    var events := Config.SetWebsite(c, url, input).events;
    Config.SetWebsiteFiresNoDeletion(c, url, input);
    SetEventsKeepAggregators(w, events);
  }

  // ---- the process: the configuration and the services it drives ----

  datatype Process = Process(config: Config.Config, services: Services)

  /**
   A configuration call and the handling of its events. A TypeError,
   whether in the call itself or in a handler, is uncaught in the source
   and ends the process: `None`.
   */
  function Handle(p: Process, call: Option<Config.Emitted>): (r: Option<Process>)
    requires Owned(p.services)
    ensures call.None? ==> r.None?
    ensures r.Some? ==> r.value.config == call.value.config && Owned(r.value.services)
    ensures call.Some? ==> (r.Some? <==> DispatchAll(p.services, call.value.events).Some?)
  {
    match call
    case None => None
    case Some(em) =>
      match DispatchAll(p.services, em.events)
      case None => None
      case Some(w) => Some(Process(em.config, w))
  }

  /**
   The `website del <url>` command: the command handler only checks that a
   url was given, so an unknown url reaches `delWebsite` and throws before
   anything changes. For a known url the entry is gone and so are the
   website's checker and aggregators.
   */
  function DelWebsiteCall(p: Process, url: string): (r: Option<Process>)
    requires Owned(p.services)
    ensures !Config.HasSite(p.config, url) ==> r.None?
    ensures r.Some? ==>
      && r.value.config.websites == Remove(p.config.websites, url)
      && !Config.HasSite(r.value.config, url)
      && url !in r.value.services.checks
      && var site := Config.SiteOf(p.config, url);
         forall i :: 0 <= i < |site.aggregators| ==> Aggregate.ServiceKey(url, site.aggregators[i].key) !in r.value.services.aggregators
  {
    if Config.HasSite(p.config, url) then
      DelWebsiteStopsItsTimers(p.config, p.services, url);
      Handle(p, Config.DelWebsite(p.config, url))
    else
      Handle(p, Config.DelWebsite(p.config, url))
  }

  /**
   The `metric set <url> <name> <0|1>` command. The command handler checks
   that the website is configured, hence the precondition; the checker of
   the url registers the metric, and a url without a checker throws.
   */
  function SetMetricCall(p: Process, url: string, name: string, enabled: bool): (r: Option<Process>)
    requires Owned(p.services) && Config.HasSite(p.config, url)
    ensures r.Some? <==> url in p.services.checks
    ensures r.Some? ==>
      && r.value.config == Config.SetMetric(p.config, url, name, enabled).config
      && r.value.services == p.services.(store := Check.AddMetric(p.services.store, p.services.checks[url].body, enabled, name))
  {
    var em := Config.SetMetric(p.config, url, name, enabled);
    assert em.events[1..] == [];
    Handle(p, Some(em))
  }

  /**
   One request callback of the url's checker, fired through its interval:
   nothing happens once the checker is stopped; otherwise the outcome is
   recorded against the website's live `metrics` setting, the object that
   `setMetric` assigns into.
   */
  function CheckerTick(p: Process, url: string, o: Check.Outcome, startTime: int): (r: Option<Process>)
    requires url in p.services.checks && Config.HasSite(p.config, url)
    ensures !Running(p.services.checks[url], p.services.timers) ==> r == Some(p)
    ensures Running(p.services.checks[url], p.services.timers) ==>
      var out := Check.OnOutcome(p.services.store, p.services.alerts, p.services.checks[url].body.url,
                                 Config.SiteOf(p.config, url).metrics, o, startTime);
      && (r.Some? <==> out.Some?)
      && (r.Some? ==> r.value == p.(services := p.services.(store := out.value.store, alerts := out.value.alerts)))
  {
    var task := p.services.checks[url];
    var metrics := Config.SiteOf(p.config, url).metrics;
    var tick := (s: Option<Pushed>) =>
      if s.None? then None else Check.OnOutcome(s.value.store, s.value.alerts, task.body.url, metrics, o, startTime);
    match Fire(task, p.services.timers, Some(Pushed(p.services.store, p.services.alerts)), tick)
    case None => None
    case Some(out) => Some(p.(services := p.services.(store := out.store, alerts := out.alerts)))
  }

  /** A callback changes only the store and the alerts, so ownership of the timers is kept. */
  lemma CheckerTickKeepsOwned(p: Process, url: string, o: Check.Outcome, startTime: int)
    requires url in p.services.checks && Config.HasSite(p.config, url) && Owned(p.services)
    ensures var r := CheckerTick(p, url, o, startTime);
      r.Some? ==> Owned(r.value.services) && r.value.config == p.config
  {
  }

  /** The names of a response's readings are the three metric names, which are distinct. */
  lemma ResponseNamesDistinct(o: Check.Outcome, startTime: int)
    requires o.Response?
    ensures var rs := Check.Readings(o, startTime);
      forall a, b :: 0 <= a < b < |rs| ==> rs[a].metricName != rs[b].metricName
  {
    var rs := Check.Readings(o, startTime);
    assert rs[0].metricName == "availability" && rs[1].metricName == "response_time" && rs[2].metricName == "response_code";
  }

  /**
   After `metric set <url> <name> 1` on a website whose checker runs, the
   next response stores exactly one sample in that metric: a new metric
   holding only the reading for `name`, stamped with the send time.
   */
  lemma MetricEnabledThenResponse(p: Process, url: string, i: nat, code: int, elapsed: real, startTime: int)
    requires Owned(p.services) && Config.HasSite(p.config, url)
    requires url in p.services.checks && p.services.checks[url].body == Check.Checker(url)
    requires i < |Check.MetricList|
    requires forall k :: 0 <= k < |Check.MetricList| && k != i && Check.Enabled(Config.SiteOf(p.config, url).metrics, Check.MetricList[k]) ==>
      url in p.services.store.metrics && Check.MetricList[k] in p.services.store.metrics[url]
    ensures var n := Check.MetricList[i];
      var q := SetMetricCall(p, url, n, true);
      && q.Some? && url in q.value.services.checks && Config.HasSite(q.value.config, url)
      && var r := CheckerTick(q.value, url, Check.Response(code, elapsed), startTime);
      && r.Some? && url in r.value.services.store.metrics
      && Get(r.value.services.store, url, n) == Some(Append(Fresh(n), Check.Readings(Check.Response(code, elapsed), startTime)[i].sample))
  {
    var n := Check.MetricList[i];
    var site := Config.SiteOf(p.config, url);
    var q := SetMetricCall(p, url, n, true).value;
    var metrics := Config.SiteOf(q.config, url).metrics;
    assert metrics == Put(site.metrics, n, true);
    TrackedAreRunning(p.services.checks, p.services.timers, Intervals(p.services.aggregators));
    var readings := Check.Readings(Check.Response(code, elapsed), startTime);
    ResponseNamesDistinct(Check.Response(code, elapsed), startTime);
    forall k | 0 <= k < |readings| && Check.Enabled(metrics, readings[k].metricName)
      ensures readings[k].metricName in q.services.store.metrics[url]
    {
      if k != i {
        assert Lookup(metrics, Check.MetricList[k]) == Lookup(site.metrics, Check.MetricList[k]);
        assert Get(q.services.store, url, Check.MetricList[k]) == Get(p.services.store, url, Check.MetricList[k]);
      }
    }
    Check.RecordOncePerMetric(q.services.store, q.services.alerts, url, metrics, readings);
  }

  /**
   After `metric set <url> <name> 0` the next response leaves that metric
   exactly as it was.
   */
  lemma MetricDisabledThenResponse(p: Process, url: string, i: nat, code: int, elapsed: real, startTime: int)
    requires Owned(p.services) && Config.HasSite(p.config, url)
    requires url in p.services.checks && p.services.checks[url].body == Check.Checker(url)
    requires url in p.services.store.metrics
    requires i < |Check.MetricList|
    requires forall k :: 0 <= k < |Check.MetricList| && k != i && Check.Enabled(Config.SiteOf(p.config, url).metrics, Check.MetricList[k]) ==>
      Check.MetricList[k] in p.services.store.metrics[url]
    ensures var n := Check.MetricList[i];
      var q := SetMetricCall(p, url, n, false);
      && q.Some? && url in q.value.services.checks && Config.HasSite(q.value.config, url)
      && var r := CheckerTick(q.value, url, Check.Response(code, elapsed), startTime);
      && r.Some? && url in r.value.services.store.metrics
      && Get(r.value.services.store, url, n) == Get(p.services.store, url, n)
  {
    var n := Check.MetricList[i];
    var site := Config.SiteOf(p.config, url);
    var q := SetMetricCall(p, url, n, false).value;
    var metrics := Config.SiteOf(q.config, url).metrics;
    assert metrics == Put(site.metrics, n, false);
    assert q.services.store == p.services.store;
    TrackedAreRunning(p.services.checks, p.services.timers, Intervals(p.services.aggregators));
    var readings := Check.Readings(Check.Response(code, elapsed), startTime);
    ResponseNamesDistinct(Check.Response(code, elapsed), startTime);
    forall k | 0 <= k < |readings| && Check.Enabled(metrics, readings[k].metricName)
      ensures readings[k].metricName in q.services.store.metrics[url]
    {
      assert k != i;
      assert Lookup(metrics, Check.MetricList[k]) == Lookup(site.metrics, Check.MetricList[k]);
    }
    Check.RecordOncePerMetric(q.services.store, q.services.alerts, url, metrics, readings);
  }

  /** The one subscriber of a metric that had none after `_alertSet`. */
  lemma DeliverToOne(s: Alert.AlertService, k: string, sub: Subscriber, sample: Sample)
    ensures Alert.Deliver(s, [Entry(k, sub)], sample) == Alert.NewValue(s, sub.url, sub.alertName, sub.settings, sample)
  {
    assert [Entry(k, sub)][1..] == [];
  }

  /**
   An alert `{min: 0.5}` on a metric without subscribers gets exactly one
   subscriber; a push of 0 triggers it and logs "down", a following push of
   1 recovers it and logs "recovered".
   */
  lemma LowThresholdScenario(store: DataStore, url: string, name: string)
    requires url in store.metrics && name in store.metrics[url] && store.metrics[url][name].subscribers == []
    ensures var h := Alert.AlertSet(Alert.Init(), store, url, name, [Entry("min", 0.5)]);
      && h.ok && url in h.store.metrics && name in h.store.metrics[url]
      && |h.store.metrics[url][name].subscribers| == 1
      && var p1 := Push(h.store, h.service, url, name, Sample(0, Num(0.0)));
      && p1.Some? && Alert.IsTriggered(p1.value.alerts, Alert.FlagKey(url, name))
      && url in p1.value.store.metrics
      && var p2 := Push(p1.value.store, p1.value.alerts, url, name, Sample(1, Num(1.0)));
      && p2.Some? && !Alert.IsTriggered(p2.value.alerts, Alert.FlagKey(url, name))
      && p2.value.alerts.alerts == [Alert.Line(Alert.Down, url, name, Sample(0, Num(0.0))), Alert.Line(Alert.Recovered, url, name, Sample(1, Num(1.0)))]
  {
    var settings := [Entry("min", 0.5)];
    var watch := AlertWatch(url, name, settings);
    var h := Alert.AlertSet(Alert.Init(), store, url, name, settings);
    assert h.store.metrics[url][name].subscribers == [Entry(Alert.WatchKey(name), watch)];
    DeliverToOne(h.service, Alert.WatchKey(name), watch, Sample(0, Num(0.0)));
    Alert.MinThreshold(h.service, url, name, 0.5, Sample(0, Num(0.0)));
    var p1 := Push(h.store, h.service, url, name, Sample(0, Num(0.0))).value;
    assert p1.store.metrics[url][name].subscribers == [Entry(Alert.WatchKey(name), watch)];
    DeliverToOne(p1.alerts, Alert.WatchKey(name), watch, Sample(1, Num(1.0)));
    Alert.MinThreshold(p1.alerts, url, name, 0.5, Sample(1, Num(1.0)));
  }

  /** The mirror image with `{max: 0.5}`: a push of 1 triggers, a push of 0 recovers. */
  lemma HighThresholdScenario(store: DataStore, url: string, name: string)
    requires url in store.metrics && name in store.metrics[url] && store.metrics[url][name].subscribers == []
    ensures var h := Alert.AlertSet(Alert.Init(), store, url, name, [Entry("max", 0.5)]);
      && h.ok && url in h.store.metrics
      && var p1 := Push(h.store, h.service, url, name, Sample(0, Num(1.0)));
      && p1.Some? && Alert.IsTriggered(p1.value.alerts, Alert.FlagKey(url, name))
      && url in p1.value.store.metrics
      && var p2 := Push(p1.value.store, p1.value.alerts, url, name, Sample(0, Num(0.0)));
      && p2.Some? && !Alert.IsTriggered(p2.value.alerts, Alert.FlagKey(url, name))
      && p2.value.alerts.alerts == [Alert.Line(Alert.Down, url, name, Sample(0, Num(1.0))), Alert.Line(Alert.Recovered, url, name, Sample(0, Num(0.0)))]
  {
    var settings := [Entry("max", 0.5)];
    var watch := AlertWatch(url, name, settings);
    var h := Alert.AlertSet(Alert.Init(), store, url, name, settings);
    assert h.store.metrics[url][name].subscribers == [Entry(Alert.WatchKey(name), watch)];
    DeliverToOne(h.service, Alert.WatchKey(name), watch, Sample(0, Num(1.0)));
    Alert.MaxThreshold(h.service, url, name, 0.5, Sample(0, Num(1.0)));
    var p1 := Push(h.store, h.service, url, name, Sample(0, Num(1.0))).value;
    assert p1.store.metrics[url][name].subscribers == [Entry(Alert.WatchKey(name), watch)];
    DeliverToOne(p1.alerts, Alert.WatchKey(name), watch, Sample(0, Num(0.0)));
    Alert.MaxThreshold(p1.alerts, url, name, 0.5, Sample(0, Num(0.0)));
  }
}
